=== FILE: README.md ===
# pyFoamListCases, modelled in Dafny

This project models the core of PyFoam's `pyFoamListCases` utility
(`ListCases.run`) together with the package's `version()` /
`versionString()`.

`ListCases.run` scans directories for OpenFOAM case directories. For every
valid case it builds one record holding:

- the times and the parallel times;
- the modification time;
- the disk usage;
- the state files a running case leaves behind;
- the controlDict bounds;
- custom data, read from a solver's pickled analysis files.

It then sorts the records and prints one of three things: "No cases found",
the raw records, or a table followed by the total disk usage.

The model is written as pure functions over immutable data:

- **Fields** are the record keys; a record is a `map<Field, Value>`.
- **Values** are Python-like values (`None`, numbers, strings, dicts), with
  the mixed-type ordering Python 2 uses for sorting.
- **Python 2** is the language the model follows throughout, not only for
  sorting. `strip()` removes ASCII whitespace, as Python 2's `str.strip`
  does. Mixed-type values compare in Python 2's order. `open()` failing
  raises IOError, which `except OSError` does not catch.
- **The file system** and the services around it are parameters. These are
  the case-directory probe, the pickle loader, and `float()` /
  `time.strptime`.
- **The display conversion** of a value is an abstract `show` function. It
  stands for `asctime` or a relative time, then `humanReadableSize`, then
  `str()`.

The modules follow the steps of the source:

| file | module | what it models |
|---|---|---|
| text.dfy | Text | `strip`, `split`/`join`, decimal integers, `%Ns` padding |
| values.dfy | Values | the values a record holds, and their order |
| fields.dfy | Fields | the record keys and their names |
| files.dfy | Files | the file system, and `os.path.join` |
| state_files.dfy | StateFiles | `readState` |
| custom_data.dfy | CustomData | `--custom-data` parsing, cache-file selection, the key-path walk |
| records.dfy | CaseRecords | building one record per case, the scan, and the disk-usage total |
| sorting.dfy | Sorting | `cData.sort(key=…, reverse=…)`: a stable sort on one field |
| layout.dfy | Layout | the column template, the `%`-format string, the header, the dash line and the rows |
| list_cases.dfy | ListCases | `run` as a whole |
| version.dfy | Version | `version()` and `versionString()` |

Where the code and its description disagree, the model follows the code:

- A padded column is written with `%(k)Ns`, which right-justifies the value.
- Auto-detection of the solver does not drop `*.analyzed` directories whose
  names lack the `PyFoamRunner.` prefix. Such a directory is still a
  candidate, and its solver is `None`.

## Model

| member | source | states |
|---|---|---|
| StateFiles.ReadState | PyFoam/Applications/ListCases.py:143-149 | A missing state file gives the caller's default and leaves the has-state flag unchanged. A present one gives its content without surrounding white space and sets the flag. |
| Text.Strip | PyFoam/Applications/ListCases.py:149 | The result is the input minus a white-space prefix and a white-space suffix, and it neither begins nor ends with white space. |
| Text.StripIdempotent | PyFoam/Applications/ListCases.py:149 | Stripping twice is the same as stripping once. |
| Text.SplitJoin | PyFoam/Applications/ListCases.py:165 | Joining the pieces of `split(sep)` with `sep` gives back the original string. |
| Text.SplitPiecesFree | PyFoam/Applications/ListCases.py:173 | No piece of `split(sep)` contains the separator. |
| Text.SplitCharCount | PyFoam/Applications/ListCases.py:165-166 | Splitting on one character gives one more piece than that character occurs, so `len(lst)==2` means exactly one `=`. |
| Text.ParseNatToString | PyFoam/Applications/ListCases.py:170 | The decimal text written for a natural number reads back as that number. |
| Text.PadLeftShape | PyFoam/Applications/ListCases.py:392 | `%Ns` puts the value at the right end of the cell, with only spaces before it. |
| Text.Find | PyFoam/Applications/ListCases.py:165 | The search `split` relies on: the result is the first index where the separator occurs, or None when it occurs nowhere. |
| Files.PathJoinShape | PyFoam/Applications/ListCases.py:181 | The joined path ends with the second part. An absolute second part replaces the first. Otherwise the first part comes first, followed by exactly one `/` unless it is empty or already ends in `/`, so the length is the sum of both lengths plus that one separator. |
| Fields.Parse | PyFoam/Applications/ListCases.py:388 | The field parsed from a name has that name as its key. |
| Fields.ParseKey | PyFoam/Applications/ListCases.py:388 | A field that a record can hold is recovered from its key. |
| Fields.FixedKeyNotCustom | PyFoam/Applications/ListCases.py:168 | No fixed field's key has the shape of a custom-data column name. |
| CustomData.ParseSpec | PyFoam/Applications/ListCases.py:164-173 | A specification fails exactly when it contains two or more `=`. The failure names the specification. |
| CustomData.ParseUnnamedSpec | PyFoam/Applications/ListCases.py:169-170 | Without `=`, the column is named `Custom<i+1>`, and its keys joined with `::` give back the specification. |
| CustomData.ParseNamedSpec | PyFoam/Applications/ListCases.py:166-168 | With one `=`, the column is named after the text before `=`, plus `_`. The name, `=` and the keys joined with `::` give back the specification. |
| CustomData.ParsedKeysFree | PyFoam/Applications/ListCases.py:173 | No parsed key contains `::`. |
| CustomData.ParseSpecs | PyFoam/Applications/ListCases.py:163-173 | Parsing succeeds exactly when every specification has at most one `=`. On success, spec k gives entry k. On failure, the error names the first bad specification. |
| CustomData.ParseSpecsFrom | PyFoam/Applications/ListCases.py:164-173 | The same as ParseSpecs, for the specifications from index i on. |
| CaseRecords.ParsedNamesFresh | PyFoam/Applications/ListCases.py:166-170 | Every parsed column name starts with `C` or ends with `_`, so it cannot collide with a fixed field. |
| CustomData.Walk | PyFoam/Applications/ListCases.py:307-316 | The walk fails only when it tries to subscript a value that is neither a dict nor a string, and the failure names the key it was at. |
| CustomData.WalkFullPath | PyFoam/Applications/ListCases.py:308-310 | When every step meets a dict that has the key, the walk yields the value at the end of the path. |
| CustomData.WalkMissingKey | PyFoam/Applications/ListCases.py:311-313 | At the first missing key, the walk yields the string `No key '<k>'`. |
| CustomData.WalkStopsAtString | PyFoam/Applications/ListCases.py:314-315 | When the walk reaches a string, it stops and yields that string. |
| CustomData.FirstExisting | PyFoam/Applications/ListCases.py:299-303 | The result is the first existing path, or None when none exists. |
| CustomData.FixedCacheFile | PyFoam/Applications/ListCases.py:299-303 | With a known solver, the cache file is the first existing one of pickledData, pickledUnfinishedData and pickledStartData under `PyFoamRunner.<solver>.analyzed`. |
| CustomData.AnalyzedNames | PyFoam/Applications/ListCases.py:277 | A name is kept exactly when it is in the listing and `*.analyzed` matches it: it ends in `.analyzed` and does not start with `.`. |
| CustomData.AnalyzedNamesAppend | PyFoam/Applications/ListCases.py:277 | The filter keeps listing order: filtering two listings one after the other gives the filtered first followed by the filtered second. |
| CustomData.SolverOf | PyFoam/Applications/ListCases.py:280-283 | A directory name gives a solver exactly when it starts with `PyFoamRunner.`. For an analysis directory name that holds both the prefix and the suffix, the solver is the text between them. |
| CustomData.TierFrom | PyFoam/Applications/ListCases.py:277-285 | Every collected candidate's pickle file exists, and there are no more candidates than directories. |
| CustomData.TierFromComplete | PyFoam/Applications/ListCases.py:277-285 | Every analysis directory whose pickle file exists yields a candidate: that file's `path.getmtime` time (with its sub-second part), the solver the directory name encodes, and the file's path. |
| CustomData.TierFromSound | PyFoam/Applications/ListCases.py:277-285 | Every candidate is the existing pickle file of one of the analysis directories, with that file's `path.getmtime` time and that directory's solver. |
| CustomData.TierFromAppend | PyFoam/Applications/ListCases.py:277-285 | Candidates follow listing order: the candidates of two listings one after the other are those of the first followed by those of the second. |
| CustomData.Newest | PyFoam/Applications/ListCases.py:286-289 | The chosen candidate has the largest `path.getmtime` time, a real number rather than the whole seconds of `stat()`, and it is the last one with that time. This matches a stable sort by mtime followed by taking the last element. |
| CustomData.FirstNonEmpty | PyFoam/Applications/ListCases.py:275-290 | The result is the first tier that has a candidate, or None when no tier has one. |
| CustomData.AutoDetect | PyFoam/Applications/ListCases.py:275-290 | Auto-detection takes the newest candidate of the first non-empty pickle tier, and yields None only when every tier is empty. |
| CustomData.SelectCache | PyFoam/Applications/ListCases.py:269-303 | A given solver uses the fixed cache file and records no solver. Without one, the detected file is used and the solver column holds the solver its directory names (None for a directory without the `PyFoamRunner.` prefix); when nothing is detected, the solver is `none found` and the fixed file of that name is looked up. |
| CustomData.ResolveAll | PyFoam/Applications/ListCases.py:306-316 | There is one field per custom column, and resolving succeeds exactly when every key-path walk succeeds. |
| CustomData.ResolveAllValues | PyFoam/Applications/ListCases.py:306-316 | Each column holds what walking the last specification of that name gives: a later specification with the same name overwrites the value of an earlier one. |
| CustomData.CustomFields | PyFoam/Applications/ListCases.py:269-319 | Without a cache file, every column reads `no file`. With one, the fields exist exactly when every walk succeeds, and each column holds the resolved value from the loaded data. A `solver` field is present exactly when the solver was auto-detected, and it holds the selected solver. |
| CaseRecords.LatestMtime | PyFoam/Applications/ListCases.py:217-220 | The case mtime is at least the directory's own mtime, and it is that mtime or the mtime of some processor directory. |
| CaseRecords.LatestMtimeIsNewest | PyFoam/Applications/ListCases.py:217-220 | The case mtime is at least the mtime of every `processor[0-9]` entry. |
| CaseRecords.BaseFields | PyFoam/Applications/ListCases.py:189-220 | Every record has the ten base fields. name is the case path. mtime is the directory's, or the newest of it and its processor directories under --parallel. first and last are the first and last time (the string `None` without times), nrSteps their count, procs the processor count. pFirst, pLast and nrParallel are -1 without --parallel; with it, nrParallel counts the parallel times and pFirst/pLast are the first and last (-1 when there are none). diskusage is the case's size with --disk-usage and -1 otherwise. |
| CaseRecords.StatusPart | PyFoam/Applications/ListCases.py:222-233 | nowTime, lastOutput and state are present exactly without --no-state. nowTime is `float()` of the stripped CurrentTime file (None when that fails), lastOutput the parsed LastOutputSeen time (`nix` when parsing fails), state the stripped TheState text; a missing file reads as the empty string. Reading any of their files sets the has-state flag. |
| CaseRecords.StartPart | PyFoam/Applications/ListCases.py:235-239 | startedAt is present with state or with the estimate, and holds the parsed StartedAt time (`nix` when parsing fails). Reading its file sets the flag. |
| CaseRecords.BoundsPart | PyFoam/Applications/ListCases.py:241-255 | startTime and endTime are present with either option. They hold the controlDict's startTime and endTime, and both are None when the controlDict cannot be parsed. |
| CaseRecords.EstimatePart | PyFoam/Applications/ListCases.py:257-267 | endTimeEstimate is present with --estimate-end-time. It holds the estimate when the state is `Running`, and None otherwise, in particular when no TheState file exists. |
| CaseRecords.StateFields | PyFoam/Applications/ListCases.py:222-267 | The state fields depend only on the options, and each holds the value its part gives. The flag is set exactly when some state file that was read exists. |
| CaseRecords.JoinedValues | PyFoam/Applications/ListCases.py:222-267 | Putting the four state parts together keeps every part's values. |
| CaseRecords.StateValuesAgree | PyFoam/Applications/ListCases.py:189-319 | A record that agrees with the state part on its fields holds the state values too. |
| CaseRecords.ThreeParts | PyFoam/Applications/ListCases.py:189-319 | A record made of parts with disjoint fields holds every part's values. |
| CaseRecords.CaseCustomFields | PyFoam/Applications/ListCases.py:269-319 | The custom fields depend only on the plan, and there are none without custom data. |
| CaseRecords.ForeignNotInSchema | PyFoam/Applications/ListCases.py:168 | A name not of custom shape, such as a separator, is never a field of a record. |
| CaseRecords.BaseKeysApart | PyFoam/Applications/ListCases.py:189-319 | The base, state and custom fields never overlap, so no step overwrites another step's field. |
| CaseRecords.BuildRecord | PyFoam/Applications/ListCases.py:189-319 | A record has exactly the plan's fields. Its base fields, state fields and custom fields hold the values computed from the case. The has-state flag grows exactly by the state files that were read. It fails only when the custom fields fail; without custom data, building never fails. |
| CaseRecords.Step | PyFoam/Applications/ListCases.py:180-323 | An invalid or unreadable directory, or a case whose reading fails late, leaves the accumulator alone. A valid case appends exactly one record, and that record is the one built for the case (BuildRecord): named after its path, with the plan's fields and the case's values. It sets the state flag exactly when one of its state files was read. |
| CaseRecords.StepAsWritten | PyFoam/Applications/ListCases.py:213-216 | As the program has it, a case whose reading fails after its size was counted adds no record and leaves the flag alone, while every other probe is handled as by Step. |
| CaseRecords.AsWrittenCountsDroppedCase | PyFoam/Applications/ListCases.py:213-220 | With --disk-usage, a case that fails late with a positive size leaves the total above the sum of the listed sizes. |
| CaseRecords.StepDropsLateFailure | PyFoam/Applications/ListCases.py:321-322 | The corrected step drops such a case without a trace, so the total still matches the records. |
| CaseRecords.StepConsistent | PyFoam/Applications/ListCases.py:213-216 | After a step, the running total is still the sum of the recorded disk usages (0 when sizes are off, with every record holding -1). |
| CaseRecords.Scan | PyFoam/Applications/ListCases.py:179-323 | A scan whose step never fails does not fail. |
| CaseRecords.ScanConsistent | PyFoam/Applications/ListCases.py:213-216 | Scanning keeps the disk-usage total equal to the sum over the records. |
| CaseRecords.ScanNames | PyFoam/Applications/ListCases.py:179-321 | Scanning keeps the records it started with and appends one record per valid case, in scanning order and named after it. |
| CaseRecords.ScanFits | PyFoam/Applications/ListCases.py:179-321 | If every step appends, for a valid case, a record that fits it, then after scanning the k-th new record fits the k-th valid case. |
| CaseRecords.AggregateRecord | PyFoam/Applications/ListCases.py:189-319 | Record k of the program's scan is the dict built for the k-th valid case. Its name, base fields (mtime, times, processors, disk usage), state fields and custom fields are that case's. |
| CaseRecords.ScanFlags | PyFoam/Applications/ListCases.py:143-148 | After scanning, the state flag is set exactly when it was set before or some valid case has a state file that was read. |
| CaseRecords.SomeCaseHasStateCons | PyFoam/Applications/ListCases.py:179-181 | Some case in a list has a state file exactly when the first one does or one of the rest does. |
| CaseRecords.Aggregate | PyFoam/Applications/ListCases.py:157-323 | The scan as the program runs it. All records share the plan's fields. Record k is the record built for the k-th valid case, with that case's name and base, state and custom values. When sizes are requested, the total is the sum of the records' sizes plus the sizes of the cases that failed late, so it is at least that sum. Otherwise it is 0. The state flag is set exactly when some valid case has a state file that was read. |
| CaseRecords.AggregateCorrected | PyFoam/Applications/ListCases.py:157-323 | The scan with the corrected step. It has the same records, each built for its case, and the same flag, and when sizes are requested the total is exactly the sum of the records' sizes. |
| CaseRecords.AggregatesAgree | PyFoam/Applications/ListCases.py:213-220 | When no case fails after its size was counted, the program's scan and the corrected one give the same result. |
| CaseRecords.StepAsWrittenCounted | PyFoam/Applications/ListCases.py:213-222 | One step as written keeps the total equal to the sum of the records' sizes plus what was lost. A case that fails late adds its size to what was lost. |
| CaseRecords.ScanCounted | PyFoam/Applications/ListCases.py:213-222 | Over a whole scan as written, what was lost grows by the sizes of all the cases that fail late. |
| CaseRecords.ScanSameSteps | PyFoam/Applications/ListCases.py:179-323 | Two loop bodies that agree on every scanned path give the same scan. |
| Values.LessIrreflexive | PyFoam/Applications/ListCases.py:329 | No value sorts before itself. |
| Values.LessTransitive | PyFoam/Applications/ListCases.py:329 | The sort order is transitive across mixed types. |
| Values.LessSplits | PyFoam/Applications/ListCases.py:329 | Incomparability is transitive, so the order is a strict weak order that a sort can use. |
| Sorting.InsertionSort | PyFoam/Applications/ListCases.py:329 | The sorted list is a permutation of the records. |
| Sorting.InsertionSortSorted | PyFoam/Applications/ListCases.py:329 | The sorted list is ordered by the key, descending under reverse. |
| Sorting.InsertionSortStable | PyFoam/Applications/ListCases.py:329 | Records with equal keys keep their original order, with or without reverse. |
| Sorting.SortBy | PyFoam/Applications/ListCases.py:329 | Sorting fails exactly when some record lacks the key. Otherwise it yields a permutation that is ordered by the key and stable. |
| Layout.CustomEntriesAt | PyFoam/Applications/ListCases.py:382-383 | Every custom column contributes its name followed by the column separator, in specification order. |
| Layout.CustomEntriesOnlyCustom | PyFoam/Applications/ListCases.py:382-383 | The custom part of the template names custom-data columns only. |
| Layout.ColumnSpecSound | PyFoam/Applications/ListCases.py:363-385 | Every column of the template is a field of every record, and no separator is. |
| Layout.AsWrittenNamesMissingField | PyFoam/Applications/ListCases.py:369-370 | With --no-state and a state file read, the template as written names nowTime, which no record has. |
| Layout.AsWrittenHasNowTime | PyFoam/Applications/ListCases.py:369-370 | Once a state file was read, the template as written contains nowTime. |
| Layout.NowTimeNotInSchema | PyFoam/Applications/ListCases.py:222-226 | With --no-state, no record has nowTime. |
| Layout.AsWrittenPrintsName | PyFoam/Applications/ListCases.py:387-389 | In that case the format prints the literal text `nowTime` in the header and in every row. |
| Layout.LiteralWhereMissing | PyFoam/Applications/ListCases.py:387-389 | A template entry that is not a record field is copied into the format as literal text. |
| Layout.CorrectedOmitsNowTime | PyFoam/Applications/ListCases.py:369-370 | The corrected template has no nowTime column under --no-state. |
| Layout.ColumnWidthIsMax | PyFoam/Applications/ListCases.py:339-361 | A column is as wide as the longest of its name and its displayed values. |
| Layout.Widths | PyFoam/Applications/ListCases.py:339-341 | There is a width for every field of the first record. |
| Layout.WidthsWideEnough | PyFoam/Applications/ListCases.py:339-361 | Every name and displayed value fits its column's width. |
| Layout.Format | PyFoam/Applications/ListCases.py:387-394 | Each template entry becomes a literal exactly when it is not a field. Every field is padded to its width, except in the last entry: a field there is unpadded, and only there. |
| Layout.FormatFollowsSpec | PyFoam/Applications/ListCases.py:387-394 | With the plan's fields, separators stay literal and columns become the fields they name. |
| Layout.FormatFits | PyFoam/Applications/ListCases.py:387-394 | The header and every row fit the format built from the widths. |
| Layout.CellFrom | PyFoam/Applications/ListCases.py:392 | The i-th padded cell sits at its offset in the rendered line. |
| Layout.CellAt | PyFoam/Applications/ListCases.py:392 | The i-th padded cell sits at the sum of the earlier widths, and it is the value right-justified to the column width. |
| Layout.Table | PyFoam/Applications/ListCases.py:399-406 | There is a header line, then a dash line exactly as long as the header, then one line per record. |
| Layout.TableAligned | PyFoam/Applications/ListCases.py:399-406 | In the header and in every row, a padded column occupies the same character positions. |
| ListCases.ListingFormatFits | PyFoam/Applications/ListCases.py:339-394 | The format computed from the records fits them, and only its last piece is unpadded, so the table is aligned. |
| ListCases.ListingColumns | PyFoam/Applications/ListCases.py:363-394 | With the corrected template, every separator is printed as itself and every column holds the field it names. |
| ListCases.Listing | PyFoam/Applications/ListCases.py:399-409 | The table has one line per case, the header and the dash line. With --disk-usage, a last line `Total disk-usage: <size>` follows. |
| ListCases.ListingTable | PyFoam/Applications/ListCases.py:399-406 | The lines before the total are the table of the computed format. |
| ListCases.Present | PyFoam/Applications/ListCases.py:329-409 | Whatever the template: reporting fails exactly when there are cases and the sort key is not a field. It yields "No cases found" exactly when there are none. --dump yields the records as the stable sort by the key gives them (descending under --reverse), which is a sorted permutation. Otherwise the lines are the listing of those sorted records: the header, the dash line, one row per case in sort order, and the total with --disk-usage. |
| ListCases.PrintedRows | PyFoam/Applications/ListCases.py:399-406 | In a printed table, line k+2 is the k-th record in sort order, rendered with the table's format, and the sort order is a sorted permutation of the scanned records. |
| ListCases.Report | PyFoam/Applications/ListCases.py:329-409 | The same promises for the report as the program prints it, with the state block following the state flag alone. |
| ListCases.ReportCorrected | PyFoam/Applications/ListCases.py:363-409 | The same promises for the report with the state block shown only when the state fields were read. |
| ListCases.ReportsAgree | PyFoam/Applications/ListCases.py:369-370 | The two reports are the same unless the state flag is set under --no-state. |
| ListCases.AsWrittenListingNamesNowTime | PyFoam/Applications/ListCases.py:369-394 | Under --no-state with the flag set, the table the program prints has the literal text `nowTime` among its pieces. |
| ListCases.ListWith | PyFoam/Applications/ListCases.py:151-409 | The program as written. A failing scan is the run's failure. Otherwise the output is what Report promises for the scanned records: "No cases found" exactly when no valid case exists; a dump sorted by the key, one entry per case; or the listing of the sorted records with the as-written columns and Aggregate's total. Without custom data, the run fails exactly for an unknown sort key when there are cases. |
| ListCases.Run | PyFoam/Applications/ListCases.py:163-173 | The first bad custom specification aborts the run with that specification named. Otherwise the run lists with the parsed specifications. |
| ListCases.RunWithoutCustomData | PyFoam/Applications/ListCases.py:329-333 | Without custom data, the only failure is a sort key that is no field, and it happens exactly when some case exists. |
| Version.VersionString | PyFoam/__init__.py:14-24 | Of the version entries modelled (ints and strings), the string exists exactly when the tuple is non-empty and its first entry is an int, and it starts with that int in decimal. |
| Version.ReleasedVersionString | PyFoam/__init__.py:9-24 | The shipped version (0, 5, 6) prints as `0.5.6`. |
| Version.SuffixRoundTrip | PyFoam/__init__.py:19-23 | The `.<int>` / `-<tag>` suffix reads back as the entries it was written from. |
| Version.VersionRoundTrip | PyFoam/__init__.py:14-24 | A printed version reads back as the tuple it was printed from, whenever its tags contain no `.` or `-`. |
| Version.ReadIntOf | PyFoam/__init__.py:18-21 | An int written with `%d` reads back as itself. |

## Left out

- I/O is left out. The file system (`exists`, `isdir`, `listdir`, `stat`, `getmtime`, `read`) is a parameter. `stat()[ST_MTIME]` gives whole seconds and `getmtime` a real number; they are two fields of the file system, with nothing relating them.
- SolutionDirectory's `isValid`, `getTimes` and `getParallelTimes`, `nrProcs` and `diskUsage` are one abstract probe per directory. They are not part of this model.
- The controlDict parser (with and without macro expansion) is abstract: its result is given.
- The unpickler is abstract: its result is given.
- `float()` and `time.mktime(time.strptime(…))` are abstract partial functions; a failure is None.
- The end-time estimate needs the clock and floating point, so `gone/frac` is a given value. The model keeps only when the estimate is None and which state files are read.
- An OSError is modelled at two points only: where the directory is probed ("is unreadable"), and after the disk usage was counted (the processor directories cannot be listed). The first kind skips the directory as a whole. The second drops the record but, as written, keeps its size in the total; see Findings. Reading a file is total in the model (`read` always returns a string), so the two error paths below are not modelled.
- A `PyFoamState.*` file that exists but cannot be read (ListCases.py:148-149) is not modelled. `hasState` is set first, then `open()` raises IOError. In Python 2, `except OSError` at ListCases.py:322 does not catch IOError, so the whole listing aborts. The model always reads such a file.
- A controlDict that parses but has no `startTime` or `endTime` entry (ListCases.py:250-251) is not modelled. That raises KeyError, which is not caught, so the listing aborts. The model's parsed controlDict always carries both entries, or is None.
- CaseRecords.Step: this step drops a case that fails late without counting its size, which is the corrected behaviour. StepAsWritten keeps the program's behaviour. Aggregate, ListWith and Run scan with StepAsWritten. AggregateCorrected scans with Step.
- Option parsing is not modelled; the options arrive parsed.
- `--progress` messages, the `--custom-data` warning, and `self.error`'s exit are left out. A bad specification becomes an `Err`.
- The display conversion is not modelled: `asctime`, relative times, `humanReadableSize` and `str()` are the abstract `show` and `humanSize` functions.
- The order of `listdir` and `glob` results is taken as given. Glob metacharacters in case paths are not modelled.
- A custom column name that contains `)` (as from `--custom-data 'a)b=x'`) is not modelled: it ends the `%(…)` key early and makes the format string fail. The model takes column names as whole keys.
- A sort over values of mixed types uses Python 2's ordering. Python 3 would raise TypeError instead.
- Records are assumed to share their fields, as the scan guarantees. KeyErrors of the width loop for foreign keys cannot arise.
- ListCases.ListWith: with custom data, it states only that a failure is the scan's failure, not an exact condition for it. A non-subscriptable value in the walk fails, but the contract does not name which kind.
- CustomData.Walk: its contract states only the failure kind. Its values are stated by WalkFullPath, WalkMissingKey and WalkStopsAtString.
- CaseRecords.CaseCustomFields: states only which fields appear. Their values are stated by CustomData.CustomFields.
- CustomData.TierFrom: its own contract states only existence and count. Which candidates appear, with which values and in which order, is stated by TierFromComplete, TierFromSound and TierFromAppend.
- CaseRecords.Scan: states only that a scan whose step never fails succeeds. The rest is in ScanConsistent and ScanNames.
- Version.VersionString: a version entry is modelled as an int or a string. `%d` would also print a float (truncated) or a bool as the first entry, and a later float or bool would be printed with `-%s`; these are not modelled. A tag containing `.` or `-` cannot be read back unambiguously, so the round trip is stated only for tags without them.
- Files.PathJoin: its properties are stated by the lemma PathJoinShape rather than by its own contract.

## Findings

| source | as written | input that shows it | evidently intended | confidence | as-written member | corrected member |
|---|---|---|---|---|---|---|
| PyFoam/Applications/ListCases.py:369-370 | The `nowTime … state` block is added whenever `self.hasState` is set. Under `--estimate-end-time`, reading PyFoamState.StartedAt or TheState sets that flag even with `--no-state`. | `--no-state --estimate-end-time` on a case directory that has a `PyFoamState.StartedAt` file | The block should appear only when the state fields were read (`self.opts.state`); otherwise `nowTime` and `state` are printed as literal text in the header and in every row. | not executed | ListCases.Report, ListCases.AsWrittenListingNamesNowTime, Layout.AsWrittenNamesMissingField, Layout.AsWrittenPrintsName | ListCases.ReportCorrected, ListCases.ReportsAgree, Layout.CorrectedOmitsNowTime, Layout.ColumnSpecSound, ListCases.ListingColumns |
| PyFoam/Applications/ListCases.py:213-220 | `totalDiskusage` grows by a case's size before its processor directories are listed and stat'ed. An OSError there drops the case's record, but its size stays in the total. | `--disk-usage --parallel` on a valid case of positive size whose processor directory cannot be stat'ed | The total disk usage printed under the table should be the sum of the listed cases' sizes. | not executed | CaseRecords.StepAsWritten, CaseRecords.AsWrittenCountsDroppedCase, CaseRecords.Aggregate | CaseRecords.Step, CaseRecords.StepDropsLateFailure, CaseRecords.StepConsistent, CaseRecords.ScanConsistent, CaseRecords.AggregateCorrected, CaseRecords.AggregatesAgree |

=== FILE: custom_data.dfy ===
/**
 The --custom-data feature of the case listing: parsing the specifications,
 choosing which analysis cache file of a case to read, and walking a key
 path into the deserialised cache.
 */
module CustomData {
  import opened Results
  import opened Text
  import opened Values
  import opened Files
  import opened Failures
  import opened Fields

  // ---------------------------------------------------------------------
  // Specification strings: "name=key1::key2" or "key1::key2"

  /** One requested column: its name and the key path into the cache. */
  datatype CustomSpec = CustomSpec(name: string, keys: seq<string>)

  const KeySeparator: string := "::"

  /** Parses the specification at 0-based position i of the command line.
      One '=' names the column (a '_' is appended so it cannot clash with a
      standard field); none gives the name Custom<i+1>; more is an error. */
  function ParseSpec(c: string, i: nat): (r: Result<CustomSpec, Failure>)
    ensures r.Err? <==> CountChar(c, '=') >= 2
    ensures r.Err? ==> r.error == BadCustomSpec(c)
  {
    var parts := Split(c, "=");
    SplitCharCount(c, '=');
    if |parts| == 2 then Ok(CustomSpec(parts[0] + "_", Split(parts[1], KeySeparator)))
    else if |parts| == 1 then Ok(CustomSpec("Custom" + IntToString(i + 1), Split(c, KeySeparator)))
    else Err(BadCustomSpec(c))
  }

  /** A specification without '=' is named after its position, and its key
      path joined with "::" is the whole specification. */
  lemma ParseUnnamedSpec(c: string, i: nat)
    requires CountChar(c, '=') == 0
    ensures ParseSpec(c, i).Ok?
    ensures ParseSpec(c, i).value.name == "Custom" + IntToString(i + 1)
    ensures Join(ParseSpec(c, i).value.keys, KeySeparator) == c
  {
    SplitCharCount(c, '=');
    SplitJoin(c, KeySeparator);
  }

  /** A specification with one '=' is named by the text before it plus '_',
      and that text, '=' and the key path joined with "::" make up the
      whole specification. */
  lemma ParseNamedSpec(c: string, i: nat)
    requires CountChar(c, '=') == 1
    ensures ParseSpec(c, i).Ok?
    ensures var name := ParseSpec(c, i).value.name;
      && |name| > 0
      && name[|name| - 1] == '_'
      && CountChar(name[..|name| - 1], '=') == 0
      && c == name[..|name| - 1] + "=" + Join(ParseSpec(c, i).value.keys, KeySeparator)
  {
    var parts := Split(c, "=");
    SplitCharCount(c, '=');
    SplitJoin(c, "=");
    SplitPiecesFree(c, "=");
    var before := parts[0];
    assert !Contains(before, "=");
    assert forall j: nat :: !OccursAt(before, ['='], j);
    CountCharAbsent(before, '=');
    assert c == before + "=" + parts[1];
    var name := before + "_";
    assert name[..|name| - 1] == before;
    SplitJoin(parts[1], KeySeparator);
  }

  /** No key of a parsed path contains the "::" separator. */
  lemma ParsedKeysFree(c: string, i: nat)
    requires ParseSpec(c, i).Ok?
    ensures forall k :: 0 <= k < |ParseSpec(c, i).value.keys| ==>
      !Contains(ParseSpec(c, i).value.keys[k], KeySeparator)
  {
    var parts := Split(c, "=");
    if |parts| == 2 {
      SplitPiecesFree(parts[1], KeySeparator);
    } else {
      SplitPiecesFree(c, KeySeparator);
    }
  }

  /** Position k holds the first malformed specification from position i
      on, and e reports it. */
  predicate FirstBadSpecAt(specs: seq<string>, i: nat, k: nat, e: Failure) {
    && i <= k < |specs|
    && CountChar(specs[k], '=') >= 2
    && e == BadCustomSpec(specs[k])
    && forall m :: i <= m < k ==> CountChar(specs[m], '=') <= 1
  }

  ghost predicate FirstBadSpec(specs: seq<string>, i: nat, e: Failure) {
    exists k: nat :: FirstBadSpecAt(specs, i, k, e)
  }

  /** v holds, in order, the parse of every specification from position i
      on. */
  ghost predicate ParsedFrom(specs: seq<string>, i: nat, v: seq<CustomSpec>)
    requires i <= |specs|
  {
    |v| == |specs| - i && forall k :: i <= k < |specs| ==> ParseSpec(specs[k], k) == Ok(v[k - i])
  }

  lemma ParsedFromCons(specs: seq<string>, i: nat, spec: CustomSpec, rest: seq<CustomSpec>)
    requires i < |specs| && ParseSpec(specs[i], i) == Ok(spec) && ParsedFrom(specs, i + 1, rest)
    ensures ParsedFrom(specs, i, [spec] + rest)
  {
    var all := [spec] + rest;
    assert all[0] == spec;
    assert forall j :: 0 <= j < |rest| ==> all[j + 1] == rest[j];
  }

  /** Parses the specifications from position i on, stopping at the first
      malformed one. */
  function ParseSpecsFrom(specs: seq<string>, i: nat): (r: Result<seq<CustomSpec>, Failure>)
    requires i <= |specs|
    ensures r.Ok? <==> forall k :: i <= k < |specs| ==> CountChar(specs[k], '=') <= 1
    ensures r.Ok? ==> ParsedFrom(specs, i, r.value)
    ensures r.Err? ==> FirstBadSpec(specs, i, r.error)
    decreases |specs| - i
  {
    if i == |specs| then Ok([])
    else
      match ParseSpec(specs[i], i)
      case Err(e) =>
        assert FirstBadSpecAt(specs, i, i, e);
        Err(e)
      case Ok(spec) =>
        match ParseSpecsFrom(specs, i + 1)
        case Err(e) =>
          var k :| FirstBadSpecAt(specs, i + 1, k, e);
          assert FirstBadSpecAt(specs, i, k, e);
          Err(e)
        case Ok(rest) =>
          ParsedFromCons(specs, i, spec, rest);
          Ok([spec] + rest)
  }

  /** The custom-data loop of ListCases.run over all --custom-data values. */
  function ParseSpecs(specs: seq<string>): (r: Result<seq<CustomSpec>, Failure>)
    ensures r.Ok? <==> forall k :: 0 <= k < |specs| ==> CountChar(specs[k], '=') <= 1
    ensures r.Ok? ==> |r.value| == |specs|
    ensures r.Ok? ==> forall k :: 0 <= k < |specs| ==> ParseSpec(specs[k], k) == Ok(r.value[k])
    ensures r.Err? ==> FirstBadSpec(specs, 0, r.error)
  {
    ParseSpecsFrom(specs, 0)
  }

  /** The record fields the specifications add. */
  function Columns(customs: seq<CustomSpec>): set<Field> {
    set k | 0 <= k < |customs| :: Custom(customs[k].name)
  }

  // ---------------------------------------------------------------------
  // Walking a key path into the cache

  function NoKey(k: string): string {
    "No key '" + k + "'"
  }

  /** The value reached by following keys through nested dictionaries, if
      every step exists. This is the reference the walk is checked against. */
  function Lookup(node: Value, keys: seq<string>): Option<Value>
    decreases |keys|
  {
    if |keys| == 0 then Some(node)
    else if node.Dict? && keys[0] in node.entries then Lookup(node.entries[keys[0]], keys[1..])
    else None
  }

  /** The value at the given path exists and is a dictionary. */
  predicate DictAt(node: Value, path: seq<string>) {
    var l := Lookup(node, path);
    l.Some? && l.value.Dict?
  }

  /** Every proper prefix of keys[..n] leads to a dictionary. */
  ghost predicate DictsAlong(node: Value, keys: seq<string>, n: nat)
    requires n <= |keys|
  {
    forall j :: 0 <= j < n ==> DictAt(node, keys[..j])
  }

  /** The inner loop over one key path: index step by step; a missing key
      gives the placeholder "No key '<k>'" and stops; a string reached on
      the way stops the walk and is the result; indexing anything that is
      not a dictionary raises TypeError. */
  function Walk(node: Value, keys: seq<string>): (r: Result<Value, Failure>)
    ensures r.Err? ==> exists k :: 0 <= k < |keys| && r.error == NotSubscriptable(keys[k])
    decreases |keys|
  {
    if |keys| == 0 then Ok(node)
    else
      match node
      case Dict(m) =>
        if keys[0] !in m then Ok(Str(NoKey(keys[0])))
        else if m[keys[0]].Str? then Ok(m[keys[0]])
        else
          var r := Walk(m[keys[0]], keys[1..]);
          assert r.Err? ==> exists k :: 1 <= k < |keys| && r.error == NotSubscriptable(keys[k]) by {
            if r.Err? {
              var k :| 0 <= k < |keys[1..]| && r.error == NotSubscriptable(keys[1..][k]);
              assert keys[1..][k] == keys[k + 1];
            }
          }
          r
      case _ => Err(NotSubscriptable(keys[0]))
  }

  lemma LookupStep(node: Value, keys: seq<string>, j: nat)
    requires 0 < j <= |keys| && node.Dict? && keys[0] in node.entries
    ensures Lookup(node, keys[..j]) == Lookup(node.entries[keys[0]], keys[1..][..j - 1])
  {
    assert keys[..j][0] == keys[0];
    assert keys[..j][1..] == keys[1..][..j - 1];
  }

  /** Descending one level keeps the "dictionaries along the way" property. */
  lemma DictsAlongStep(node: Value, keys: seq<string>, n: nat)
    requires 1 < n <= |keys| && DictsAlong(node, keys, n)
    ensures node.Dict? && keys[0] in node.entries
    ensures DictsAlong(node.entries[keys[0]], keys[1..], n - 1)
  {
    assert keys[..0] == [];
    assert DictAt(node, keys[..0]);
    assert DictAt(node, keys[..1]);
    LookupStep(node, keys, 1);
    forall j | 0 <= j < n - 1
      ensures DictAt(node.entries[keys[0]], keys[1..][..j])
    {
      assert DictAt(node, keys[..j + 1]);
      LookupStep(node, keys, j + 1);
    }
  }

  /** The start of a path along dictionaries is itself a dictionary. */
  lemma DictsAlongRoot(node: Value, keys: seq<string>, n: nat)
    requires 0 < n <= |keys| && DictsAlong(node, keys, n)
    ensures node.Dict?
  {
    assert keys[..0] == [];
    assert DictAt(node, keys[..0]);
  }

  /** When every step goes through a dictionary that has the key and no
      string is met before the end, the walk yields the value at the full
      path. */
  lemma {:induction false} WalkFullPath(node: Value, keys: seq<string>, v: Value)
    requires |keys| > 0 && DictsAlong(node, keys, |keys|)
    requires Lookup(node, keys) == Some(v)
    ensures Walk(node, keys) == Ok(v)
    decreases |keys|
  {
    DictsAlongRoot(node, keys, |keys|);
    if |keys| > 1 {
      DictsAlongStep(node, keys, |keys|);
      var child := node.entries[keys[0]];
      assert DictAt(node, keys[..1]);
      LookupStep(node, keys, 1);
      assert keys[1..][..0] == [];
      assert child.Dict?;
      WalkFullPath(child, keys[1..], v);
    }
  }

  /** A key missing at step i yields exactly "No key '<k>'" for that key. */
  lemma {:induction false} WalkMissingKey(node: Value, keys: seq<string>, i: nat)
    requires i < |keys| && DictsAlong(node, keys, i + 1)
    requires keys[i] !in Lookup(node, keys[..i]).value.entries
    ensures Walk(node, keys) == Ok(Str(NoKey(keys[i])))
    decreases i
  {
    DictsAlongRoot(node, keys, i + 1);
    if i == 0 {
      assert keys[..0] == [];
    } else {
      DictsAlongStep(node, keys, i + 1);
      var child := node.entries[keys[0]];
      LookupStep(node, keys, i);
      assert keys[1..][..i - 1] == keys[..i][1..];
      assert DictAt(node, keys[..1]);
      LookupStep(node, keys, 1);
      assert keys[1..][..0] == [];
      WalkMissingKey(child, keys[1..], i - 1);
    }
  }

  /** A string reached after i steps, before or at the end of the path, is
      the result: the walk does not index into text. */
  lemma {:induction false} WalkStopsAtString(node: Value, keys: seq<string>, i: nat, s: string)
    requires 0 < i <= |keys| && DictsAlong(node, keys, i)
    requires Lookup(node, keys[..i]) == Some(Str(s))
    ensures Walk(node, keys) == Ok(Str(s))
    decreases i
  {
    DictsAlongRoot(node, keys, i);
    if i == 1 {
      assert keys[..1] == [keys[0]];
      assert keys[..1][1..] == [];
    } else {
      DictsAlongStep(node, keys, i);
      var child := node.entries[keys[0]];
      LookupStep(node, keys, i);
      assert DictAt(node, keys[..1]);
      LookupStep(node, keys, 1);
      assert keys[1..][..0] == [];
      WalkStopsAtString(child, keys[1..], i - 1, s);
    }
  }

  // ---------------------------------------------------------------------
  // Choosing the analysis cache file

  /** The cache files a solver run leaves, in order of preference. */
  const PickleNames: seq<string> := ["pickledData", "pickledUnfinishedData", "pickledStartData"]

  const RunnerPrefix: string := "PyFoamRunner."
  const AnalyzedSuffix: string := ".analyzed"

  /** paths[k] exists and no earlier entry does. */
  predicate FirstAt(fs: FileSystem, paths: seq<string>, k: int) {
    && 0 <= k < |paths|
    && fs.pathExists(paths[k])
    && forall m :: 0 <= m < k ==> !fs.pathExists(paths[m])
  }

  /** The first of paths that exists. */
  function FirstExisting(fs: FileSystem, paths: seq<string>): (r: Option<string>)
    ensures r.None? <==> forall k :: 0 <= k < |paths| ==> !fs.pathExists(paths[k])
    ensures r.Some? ==> exists k :: FirstAt(fs, paths, k) && paths[k] == r.value
  {
    if |paths| == 0 then None
    else if fs.pathExists(paths[0]) then Some(paths[0])
    else
      var r := FirstExisting(fs, paths[1..]);
      assert r.Some? ==> exists k :: FirstAt(fs, paths, k) && paths[k] == r.value by {
        if r.Some? {
          var k :| FirstAt(fs, paths[1..], k) && paths[1..][k] == r.value;
          assert paths[k + 1] == r.value;
          forall m | 0 <= m < k + 1 ensures !fs.pathExists(paths[m]) {
            if m > 0 {
              assert paths[m] == paths[1..][m - 1];
            }
          }
          assert FirstAt(fs, paths, k + 1);
        }
      }
      assert r.None? ==> forall k :: 0 <= k < |paths| ==> !fs.pathExists(paths[k]) by {
        if r.None? {
          forall k | 0 < k < |paths| ensures !fs.pathExists(paths[k]) {
            assert paths[k] == paths[1..][k - 1];
          }
        }
      }
      r
  }

  /** The cache files of a named solver, in order of preference. */
  function SolverCacheFiles(caseDir: string, solver: string): (r: seq<string>)
    ensures |r| == |PickleNames|
  {
    var dir := PathJoin(caseDir, RunnerPrefix + solver + AnalyzedSuffix);
    [PathJoin(dir, PickleNames[0]), PathJoin(dir, PickleNames[1]), PathJoin(dir, PickleNames[2])]
  }

  /** With a solver name, the first existing of the solver's cache files in
      the order pickledData, pickledUnfinishedData, pickledStartData. */
  function FixedCacheFile(fs: FileSystem, caseDir: string, solver: string): (r: Option<string>)
    ensures r.None? <==> forall k :: 0 <= k < 3 ==> !fs.pathExists(SolverCacheFiles(caseDir, solver)[k])
    ensures r.Some? ==> exists k ::
      FirstAt(fs, SolverCacheFiles(caseDir, solver), k) && SolverCacheFiles(caseDir, solver)[k] == r.value
  {
    FirstExisting(fs, SolverCacheFiles(caseDir, solver))
  }

  /** Names glob("*.analyzed") matches: ending in ".analyzed", and not
      hidden (glob's '*' does not match a leading '.'). */
  predicate IsAnalyzedName(n: string) {
    |n| >= |AnalyzedSuffix| && n[|n| - |AnalyzedSuffix|..] == AnalyzedSuffix && n[0] != '.'
  }

  /** The entries of a directory listing that glob("*.analyzed") returns,
      in listing order. */
  function AnalyzedNames(names: seq<string>): (r: seq<string>)
    ensures forall k :: 0 <= k < |r| ==> IsAnalyzedName(r[k])
    ensures forall n :: n in r <==> n in names && IsAnalyzedName(n)
    ensures |r| <= |names|
  {
    if |names| == 0 then []
    else if IsAnalyzedName(names[0]) then [names[0]] + AnalyzedNames(names[1..])
    else AnalyzedNames(names[1..])
  }

  /** The filter keeps listing order: filtering two listings one after the
      other is filtering their concatenation. */
  lemma {:induction false} AnalyzedNamesAppend(a: seq<string>, b: seq<string>)
    ensures AnalyzedNames(a + b) == AnalyzedNames(a) + AnalyzedNames(b)
    decreases |a|
  {
    if |a| > 0 {
      assert (a + b)[0] == a[0];
      assert (a + b)[1..] == a[1..] + b;
      AnalyzedNamesAppend(a[1..], b);
    } else {
      assert a + b == b;
    }
  }

  /** The solver name encoded in an analysis directory name: the text between
      "PyFoamRunner." and ".analyzed" (Python's base[13:-9], which is empty
      when the two overlap), or None for other names. */
  function SolverOf(base: string): (r: Option<string>)
    ensures r.Some? <==> |base| >= |RunnerPrefix| && base[..|RunnerPrefix|] == RunnerPrefix
    ensures r.Some? && IsAnalyzedName(base) && |base| >= |RunnerPrefix| + |AnalyzedSuffix| ==>
      base == RunnerPrefix + r.value + AnalyzedSuffix
  {
    if |base| >= |RunnerPrefix| && base[..|RunnerPrefix|] == RunnerPrefix then
      var stop := |base| - |AnalyzedSuffix|;
      if stop >= |RunnerPrefix| then
        var s := base[|RunnerPrefix|..stop];
        assert base == base[..|RunnerPrefix|] + s + base[stop..];
        Some(s)
      else Some("")
    else None
  }

  /** A cache file found by auto-detection: its modification time as
      path.getmtime gives it (a float, so files of the same second are still
      ordered), the solver named by its directory, and its path. */
  datatype Candidate = Candidate(mtime: real, solver: Option<string>, path: string)

  /** The path of the cache file f inside the analysis directory n. */
  function PickleIn(caseDir: string, n: string, f: string): string {
    PathJoin(PathJoin(caseDir, n), f)
  }

  /** The candidate for the cache file f in the analysis directory n. */
  function CandidateIn(fs: FileSystem, caseDir: string, f: string, n: string): Candidate {
    Candidate(fs.getmtime(PickleIn(caseDir, n, f)), SolverOf(n), PickleIn(caseDir, n, f))
  }

  /** The existing files named f inside the analysis directories among
      names, in listing order. */
  function TierFrom(fs: FileSystem, caseDir: string, f: string, names: seq<string>): (r: seq<Candidate>)
    ensures |r| <= |names|
    ensures forall c :: c in r ==> fs.pathExists(c.path)
  {
    if |names| == 0 then []
    else
      var rest := TierFrom(fs, caseDir, f, names[1..]);
      if fs.pathExists(PickleIn(caseDir, names[0], f)) then [CandidateIn(fs, caseDir, f, names[0])] + rest else rest
  }

  /** Every analysis directory whose cache file f exists yields a candidate. */
  lemma {:induction false} TierFromComplete(fs: FileSystem, caseDir: string, f: string, names: seq<string>, k: nat)
    requires k < |names| && fs.pathExists(PickleIn(caseDir, names[k], f))
    ensures CandidateIn(fs, caseDir, f, names[k]) in TierFrom(fs, caseDir, f, names)
    decreases k
  {
    var rest := TierFrom(fs, caseDir, f, names[1..]);
    var head := CandidateIn(fs, caseDir, f, names[0]);
    var cand := CandidateIn(fs, caseDir, f, names[k]);
    if k == 0 {
      assert TierFrom(fs, caseDir, f, names) == [head] + rest;
    } else {
      assert 0 <= k - 1 < |names[1..]| && cand == CandidateIn(fs, caseDir, f, names[1..][k - 1]);
      assert fs.pathExists(PickleIn(caseDir, names[1..][k - 1], f));
      TierFromComplete(fs, caseDir, f, names[1..], k - 1);
      assert TierFrom(fs, caseDir, f, names) == rest || TierFrom(fs, caseDir, f, names) == [head] + rest;
    }
  }

  /** Every candidate is the existing cache file f of one of the analysis
      directories. */
  lemma {:induction false} TierFromSound(fs: FileSystem, caseDir: string, f: string, names: seq<string>, c: Candidate)
    requires c in TierFrom(fs, caseDir, f, names)
    ensures fs.pathExists(c.path) && exists k :: 0 <= k < |names| && c == CandidateIn(fs, caseDir, f, names[k])
    decreases |names|
  {
    assert |names| > 0;
    var rest := TierFrom(fs, caseDir, f, names[1..]);
    if fs.pathExists(PickleIn(caseDir, names[0], f)) && c == CandidateIn(fs, caseDir, f, names[0]) {
      assert 0 < |names|;
    } else {
      assert c in rest;
      TierFromSound(fs, caseDir, f, names[1..], c);
      var k :| 0 <= k < |names[1..]| && c == CandidateIn(fs, caseDir, f, names[1..][k]);
      assert 0 <= k + 1 < |names| && c == CandidateIn(fs, caseDir, f, names[k + 1]);
    }
  }


  /** Candidates come in listing order: the tier of two listings one after
      the other is the tier of the first followed by that of the second. */
  lemma {:induction false} TierFromAppend(fs: FileSystem, caseDir: string, f: string, a: seq<string>, b: seq<string>)
    ensures TierFrom(fs, caseDir, f, a + b) == TierFrom(fs, caseDir, f, a) + TierFrom(fs, caseDir, f, b)
    decreases |a|
  {
    if |a| > 0 {
      assert (a + b)[0] == a[0];
      assert (a + b)[1..] == a[1..] + b;
      TierFromAppend(fs, caseDir, f, a[1..], b);
    } else {
      assert a + b == b;
    }
  }

  /** Sorting candidates by modification time (a stable sort) and taking the
      last one picks the newest, and among equally new ones the one listed
      last. */
  function Newest(cs: seq<Candidate>): (k: nat)
    requires |cs| > 0
    ensures k < |cs|
    ensures forall j :: 0 <= j < |cs| ==> cs[j].mtime <= cs[k].mtime
    ensures forall j :: k < j < |cs| ==> cs[j].mtime < cs[k].mtime
  {
    if |cs| == 1 then 0
    else
      var k := Newest(cs[..|cs| - 1]);
      assert forall j :: 0 <= j < |cs| - 1 ==> cs[..|cs| - 1][j] == cs[j];
      if cs[|cs| - 1].mtime >= cs[k].mtime then |cs| - 1 else k
  }

  /** Index of the first non-empty sequence. */
  function FirstNonEmpty<T>(tiers: seq<seq<T>>): (r: Option<nat>)
    ensures r.None? <==> forall u :: 0 <= u < |tiers| ==> |tiers[u]| == 0
    ensures r.Some? ==> r.value < |tiers| && |tiers[r.value]| > 0
    ensures r.Some? ==> forall w :: 0 <= w < r.value ==> |tiers[w]| == 0
  {
    if |tiers| == 0 then None
    else if |tiers[0]| > 0 then Some(0)
    else
      var r := FirstNonEmpty(tiers[1..]);
      assert forall u :: 0 < u < |tiers| ==> tiers[u] == tiers[1..][u - 1];
      match r
      case None => None
      case Some(u) => Some(u + 1)
  }

  /** The candidates of each tier, in the order of PickleNames. */
  function Tiers(fs: FileSystem, caseDir: string): (r: seq<seq<Candidate>>)
    ensures |r| == |PickleNames|
  {
    var names := AnalyzedNames(fs.listdir(caseDir));
    [TierFrom(fs, caseDir, PickleNames[0], names),
     TierFrom(fs, caseDir, PickleNames[1], names),
     TierFrom(fs, caseDir, PickleNames[2], names)]
  }

  /** Auto-detection: the tier and position of the chosen cache file. The
      tier is the first that has any candidate, so a later tier is only
      looked at when all earlier ones are empty; within it the newest
      candidate wins. */
  function AutoDetect(tiers: seq<seq<Candidate>>): (r: Option<(nat, nat)>)
    ensures r.None? <==> forall u :: 0 <= u < |tiers| ==> |tiers[u]| == 0
    ensures r.Some? ==> r.value.0 < |tiers| && r.value.1 < |tiers[r.value.0]|
    ensures r.Some? ==> forall w :: 0 <= w < r.value.0 ==> |tiers[w]| == 0
    ensures r.Some? ==> forall j :: 0 <= j < |tiers[r.value.0]| ==>
      tiers[r.value.0][j].mtime <= tiers[r.value.0][r.value.1].mtime
    ensures r.Some? ==> forall j :: r.value.1 < j < |tiers[r.value.0]| ==>
      tiers[r.value.0][j].mtime < tiers[r.value.0][r.value.1].mtime
  {
    match FirstNonEmpty(tiers)
    case None => None
    case Some(u) => Some((u, Newest(tiers[u])))
  }

  /** The solver column's value for a detected solver: its name, or None. */
  function SolverValue(solver: Option<string>): Value {
    match solver
    case Some(s) => Str(s)
    case None => Null
  }

  /** The solver column and the cache file chosen for one case. */
  datatype Selection = Selection(solver: Option<Value>, file: Option<string>)

  /** Cache selection for a case. With a solver name given, its three cache
      files are tried in order. Without one, auto-detection runs and fills
      the solver column: the detected solver's name (None when the directory
      is not named "PyFoamRunner.<solver>.analyzed"), or "none found", in
      which case a solver literally named "none found" is tried. */
  function SelectCache(fs: FileSystem, caseDir: string, solverName: Option<string>): (r: Selection)
    ensures solverName.Some? ==> r.solver.None? && r.file == FixedCacheFile(fs, caseDir, solverName.value)
    ensures solverName.None? ==> r.solver.Some?
    ensures solverName.None? ==> match AutoDetect(Tiers(fs, caseDir))
      case Some((u, k)) =>
        r.file == Some(Tiers(fs, caseDir)[u][k].path) && r.solver == Some(SolverValue(Tiers(fs, caseDir)[u][k].solver))
      case None => r.solver == Some(Str("none found")) && r.file == FixedCacheFile(fs, caseDir, "none found")
  {
    match solverName
    case Some(s) => Selection(None, FixedCacheFile(fs, caseDir, s))
    case None =>
      var tiers := Tiers(fs, caseDir);
      match AutoDetect(tiers)
      case Some((u, k)) =>
        var c := tiers[u][k];
        Selection(Some(SolverValue(c.solver)), Some(c.path))
      case None =>
        Selection(Some(Str("none found")), FixedCacheFile(fs, caseDir, "none found"))
  }

  // ---------------------------------------------------------------------
  // The custom fields of one case

  /** No later specification has the same name as the one at k. */
  predicate LastNamed(customs: seq<CustomSpec>, k: int)
    requires 0 <= k < |customs|
  {
    forall m :: k < m < |customs| ==> customs[m].name != customs[k].name
  }

  /** Resolves every specification against the deserialised cache, in
      order; a later specification with the same name overwrites an
      earlier one, and the first TypeError aborts. */
  function ResolveAll(raw: Value, customs: seq<CustomSpec>): (r: Result<Record, Failure>)
    ensures r.Ok? ==> r.value.Keys == Columns(customs)
    ensures r.Ok? <==> forall k :: 0 <= k < |customs| ==> Walk(raw, customs[k].keys).Ok?
  {
    if |customs| == 0 then Ok(map[])
    else
      var init := customs[..|customs| - 1];
      var last := customs[|customs| - 1];
      assert forall k :: 0 <= k < |init| ==> init[k] == customs[k];
      assert Columns(customs) == Columns(init) + {Custom(last.name)};
      match ResolveAll(raw, init)
      case Err(e) => Err(e)
      case Ok(m) =>
        match Walk(raw, last.keys)
        case Err(e) => Err(e)
        case Ok(v) => Ok(m[Custom(last.name) := v])
  }

  /** Each column holds what walking its last specification gives: a later
      specification of the same name overwrites the earlier value. */
  lemma {:induction false} ResolveAllValues(raw: Value, customs: seq<CustomSpec>, k: nat)
    requires ResolveAll(raw, customs).Ok?
    requires k < |customs| && LastNamed(customs, k)
    ensures Walk(raw, customs[k].keys).Ok?
    ensures ResolveAll(raw, customs).value[Custom(customs[k].name)] == Walk(raw, customs[k].keys).value
    decreases |customs|
  {
    var init := customs[..|customs| - 1];
    var last := customs[|customs| - 1];
    if k < |customs| - 1 {
      assert init[k] == customs[k];
      assert LastNamed(init, k);
      ResolveAllValues(raw, init, k);
    }
  }

  /** The fields --custom-data adds to a case record once the cache file is
      chosen: the solver column when auto-detecting, and one field per
      specification, each "no file" when no cache file was found. */
  function CustomFields(sel: Selection, load: string -> Value, customs: seq<CustomSpec>): (r: Result<Record, Failure>)
    ensures r.Ok? ==> r.value.Keys == (if sel.solver.Some? then {Solver} else {}) + Columns(customs)
    ensures r.Ok? && sel.solver.Some? ==> r.value[Solver] == sel.solver.value
    ensures sel.file.None? ==> r.Ok? && forall n :: n in Columns(customs) ==> r.value[n] == Str("no file")
    ensures sel.file.Some? ==> (r.Ok? <==> ResolveAll(load(sel.file.value), customs).Ok?)
    ensures sel.file.Some? && r.Ok? ==> forall n :: n in Columns(customs) ==>
      r.value[n] == ResolveAll(load(sel.file.value), customs).value[n]
  {
    var base: Record := if sel.solver.Some? then map[Solver := sel.solver.value] else map[];
    match sel.file
    case None =>
      Ok(base + map n | n in Columns(customs) :: Str("no file"))
    case Some(f) =>
      match ResolveAll(load(f), customs)
      case Err(e) => Err(e)
      case Ok(m) => Ok(base + m)
  }
}

=== FILE: failures.dfy ===
/** The ways a listing run can stop with an error instead of printing. */
module Failures {

  datatype Failure =
    /** A --custom-data argument with more than one '=': the run is aborted
        with "does not fit the pattern 'name=subs1::subs2::..'". */
    | BadCustomSpec(spec: string)
    /** A key path that tries to index something that is not a dictionary
        (a number, or the cache itself being a string): Python raises
        TypeError, which nothing catches. */
    | NotSubscriptable(key: string)
    /** Sorting by a field some record does not have: Python raises
        KeyError from the sort key function. */
    | MissingSortKey(key: string)
}

=== FILE: fields.dfy ===
/**
 The fields of a case record. The source keys its records by strings; the
 fixed fields are named by constructors here, and the custom-data columns
 keep their names. Name and Parse translate between the two, and the
 translation is lossless for every field the listing creates.
 */
module Fields {
  import opened Values

  datatype Field =
    | Mtime | First | Last | NrSteps | Procs
    | PFirst | PLast | NrParallel | Name | Diskusage
    | NowTime | LastOutput | State | StartedAt
    | StartTime | EndTime | EndTimeEstimate
    | Solver
    | Custom(column: string)

  /** One row of the listing: field to value, like the source's dict. */
  type Record = map<Field, Value>

  /** The dictionary key of a field. */
  function Key(f: Field): string {
    match f
    case Mtime => "mtime"
    case First => "first"
    case Last => "last"
    case NrSteps => "nrSteps"
    case Procs => "procs"
    case PFirst => "pFirst"
    case PLast => "pLast"
    case NrParallel => "nrParallel"
    case Name => "name"
    case Diskusage => "diskusage"
    case NowTime => "nowTime"
    case LastOutput => "lastOutput"
    case State => "state"
    case StartedAt => "startedAt"
    case StartTime => "startTime"
    case EndTime => "endTime"
    case EndTimeEstimate => "endTimeEstimate"
    case Solver => "solver"
    case Custom(n) => n
  }

  /** The field a dictionary key (a --sort-by value, a column of the
      layout) denotes. */
  function Parse(s: string): (f: Field)
    ensures Key(f) == s
  {
    // dispatching on the length keeps the number of comparisons small
    match |s|
    case 4 => if s == "last" then Last else if s == "name" then Name else Custom(s)
    case 5 =>
      if s == "mtime" then Mtime else if s == "first" then First else if s == "procs" then Procs
      else if s == "pLast" then PLast else if s == "state" then State else Custom(s)
    case 6 => if s == "pFirst" then PFirst else if s == "solver" then Solver else Custom(s)
    case 7 => if s == "nrSteps" then NrSteps else if s == "nowTime" then NowTime else if s == "endTime" then EndTime else Custom(s)
    case 9 => if s == "diskusage" then Diskusage else if s == "startedAt" then StartedAt else if s == "startTime" then StartTime else Custom(s)
    case 10 => if s == "nrParallel" then NrParallel else if s == "lastOutput" then LastOutput else Custom(s)
    case 15 => if s == "endTimeEstimate" then EndTimeEstimate else Custom(s)
    case _ => Custom(s)
  }

  /** The shape of every custom-data column name: "Custom<n>" or
      "<name>_". */
  predicate ShapedLikeCustom(n: string) {
    |n| > 0 && (n[0] == 'C' || n[|n| - 1] == '_')
  }

  /** A field the listing can create: a fixed one, or a custom column of
      the right shape. */
  predicate Creatable(f: Field) {
    !f.Custom? || ShapedLikeCustom(f.column)
  }

  /** No fixed field's key has the shape of a custom-data column. */
  lemma FixedKeyNotCustom(f: Field)
    requires !f.Custom?
    ensures !ShapedLikeCustom(Key(f))
  {
  }

  /** Reading back the key of a creatable field gives the field, so two
      creatable fields with the same key are the same field. */
  lemma {:induction false} ParseKey(f: Field)
    requires Creatable(f)
    ensures Parse(Key(f)) == f
  {
    if f.Custom? {
      forall g: Field | !g.Custom?
        ensures Key(g) != f.column
      {
        FixedKeyNotCustom(g);
      }
      assert Key(Mtime) != f.column && Key(First) != f.column && Key(Last) != f.column;
    }
  }
}

=== FILE: files.dfy ===
/**
 The file system as the listing sees it. Every access the source performs
 (path.exists, path.isdir, open().read(), stat(), path.getmtime(), listdir)
 is a field of a FileSystem value passed in, so the model stays pure.
 */
module Files {

  datatype FileSystem = FileSystem(
    pathExists: string -> bool,
    isDir: string -> bool,
    read: string -> string,
    // stat()[ST_MTIME]: whole seconds
    mtime: string -> int,
    // path.getmtime(): the same clock with its sub-second part
    getmtime: string -> real,
    listdir: string -> seq<string>)

  /** posixpath.join(a, b): an absolute b replaces a; otherwise b is appended
      with a single '/' unless a is empty or already ends in '/'. */
  function PathJoin(a: string, b: string): string
  {
    if |b| > 0 && b[0] == '/' then b
    else if a == "" || a[|a| - 1] == '/' then a + b
    else a + "/" + b
  }

  /** What the join yields: b at the end; an absolute b on its own;
      otherwise a in front, separated from b by exactly one '/' unless a is
      empty or already ends in one. */
  lemma PathJoinShape(a: string, b: string, r: string)
    requires r == PathJoin(a, b)
    ensures |r| >= |b| && r[|r| - |b|..] == b
    ensures (|b| == 0 || b[0] != '/') ==> |r| >= |a| && r[..|a|] == a
    ensures |b| > 0 && b[0] == '/' ==> r == b
    ensures (|b| == 0 || b[0] != '/') && (a == "" || a[|a| - 1] == '/') ==> |r| == |a| + |b|
    ensures (|b| == 0 || b[0] != '/') && a != "" && a[|a| - 1] != '/' ==>
      |r| == |a| + 1 + |b| && r[|a|] == '/'
  {
  }

}

=== FILE: layout.dfy ===
/**
 The table the listing prints: which columns appear and in which order
 (the column specification), how wide each padded column is, and the
 header, dash line and rows rendered from the resulting format.
 */
module Layout {
  import opened Results
  import opened Text
  import opened Values
  import opened Fields
  import opened CustomData
  import opened CaseRecords

  // ---------------------------------------------------------------------
  // The column specification

  /** An entry of the specification: a separator or a field name. */
  datatype Entry = Sep(sep: string) | Col(col: Field)

  /** The string the source puts in its specification list. */
  function EntryText(e: Entry): string {
    match e
    case Sep(t) => t
    case Col(f) => Key(f)
  }

  /** The literal separators the specification interleaves with keys. */
  const Separators: set<string> := {" | ", " - ", " (", ") ", "| ", " : ", ") | ", " s "}

  /** One column and its separator per custom-data specification. */
  function CustomEntries(customs: seq<CustomSpec>): seq<Entry> {
    if |customs| == 0 then []
    else [Col(Custom(customs[0].name)), Sep(" | ")] + CustomEntries(customs[1..])
  }

  /** Specification k is column 2k, followed by its separator. */
  lemma {:induction false} CustomEntriesAt(customs: seq<CustomSpec>)
    ensures var r := CustomEntries(customs);
      && |r| == 2 * |customs|
      && forall k :: 0 <= k < |customs| ==> r[2 * k] == Col(Custom(customs[k].name)) && r[2 * k + 1] == Sep(" | ")
  {
    if |customs| > 0 {
      var rest := CustomEntries(customs[1..]);
      CustomEntriesAt(customs[1..]);
      var r := CustomEntries(customs);
      assert r == [Col(Custom(customs[0].name)), Sep(" | ")] + rest;
      forall k | 0 < k < |customs|
        ensures r[2 * k] == Col(Custom(customs[k].name)) && r[2 * k + 1] == Sep(" | ")
      {
        assert customs[1..][k - 1] == customs[k];
        assert r[2 * k] == rest[2 * (k - 1)];
        assert r[2 * k + 1] == rest[2 * (k - 1) + 1];
      }
    }
  }

  /** The custom-data entries name only custom-data columns. */
  lemma {:induction false} CustomEntriesOnlyCustom(customs: seq<CustomSpec>)
    ensures forall e :: e in CustomEntries(customs) && e.Col? ==> e.col.Custom?
  {
    if |customs| > 0 {
      CustomEntriesOnlyCustom(customs[1..]);
    }
  }

  /** The leading columns, present in every listing, then the processor
      and disk-usage blocks. */
  function HeadEntries(plan: Plan): seq<Entry> {
    var o := plan.opts;
    [Col(Mtime), Sep(" | "), Col(First), Sep(" - "), Col(Last), Sep(" ("), Col(NrSteps), Sep(") ")]
    + (if o.parallel then [Sep("| "), Col(Procs), Sep(" : "), Col(PFirst), Sep(" - "), Col(PLast), Sep(" ("), Col(NrParallel), Sep(") | ")] else [])
    + (if o.diskusage then [Col(Diskusage), Sep(" | ")] else [])
  }

  /** The state block. */
  function StateEntries(advanced: bool): seq<Entry> {
    [Col(NowTime), Sep(" s "), Col(State), Sep(" | ")]
    + (if advanced then [Col(LastOutput), Sep(" | "), Col(StartedAt), Sep(" | ")] else [])
  }

  /** The estimate block; estimateStart adds the start of the run in front
      of the estimate. */
  function EstimateEntries(plan: Plan, estimateStart: bool): seq<Entry> {
    if plan.opts.estimateEndTime then
      (if estimateStart then [Col(StartedAt), Sep(" | ")] else []) + [Col(EndTimeEstimate), Sep(" | ")]
    else []
  }

  /** The controlDict bounds and the auto-detected solver. */
  function BoundsSolverEntries(plan: Plan): seq<Entry> {
    (if plan.opts.startEndTime then [Col(StartTime), Sep(" | "), Col(EndTime), Sep(" | ")] else [])
    + (if UsesSolverInData(plan) then [Col(Solver), Sep(" | ")] else [])
  }

  /** The columns after the state block. */
  function TailEntries(plan: Plan, estimateStart: bool): (r: seq<Entry>)
    ensures |r| > 0 && r[|r| - 1] == Col(Name)
  {
    EstimateEntries(plan, estimateStart) + BoundsSolverEntries(plan) + CustomEntries(plan.customs) + [Col(Name)]
  }

  /** The specification as the source builds it: the state block depends
      only on whether some case had state files. */
  function ColumnSpecAsWritten(plan: Plan, hasState: bool): (r: seq<Entry>)
    ensures |r| > 0 && r[|r| - 1] == Col(Name)
  {
    var o := plan.opts;
    HeadEntries(plan)
    + (if hasState then StateEntries(o.advancedState) else [])
    + TailEntries(plan, !o.advancedState)
  }

  /** The specification with the state block shown only when the state
      fields were collected, that is not under --no-state. */
  function ColumnSpec(plan: Plan, hasState: bool): (r: seq<Entry>)
    ensures |r| > 0 && r[|r| - 1] == Col(Name)
  {
    var o := plan.opts;
    HeadEntries(plan)
    + (if hasState && o.state then StateEntries(o.advancedState) else [])
    + TailEntries(plan, !o.advancedState)
  }

  /** A separator names no fixed field and has not the shape of a
      custom-data column. */
  lemma SeparatorsAreForeign()
    ensures forall e :: e in Separators ==> Parse(e) == Custom(e) && !ShapedLikeCustom(e)
  {
    forall e | e in Separators
      ensures Parse(e) == Custom(e) && !ShapedLikeCustom(e)
    {
      assert 2 <= |e| <= 4;
      if |e| == 4 {
        assert e == ") | ";
        assert e[0] != "last"[0] && e[0] != "name"[0];
      }
    }
  }

  /** Every entry is a known separator or a creatable field the records
      have. */
  ghost predicate Sound(plan: Plan, spec: seq<Entry>) {
    forall i :: 0 <= i < |spec| ==>
      match spec[i]
      case Sep(t) => t in Separators
      case Col(f) => f in Schema(plan) && Creatable(f)
  }

  lemma SoundConcat(plan: Plan, a: seq<Entry>, b: seq<Entry>)
    requires Sound(plan, a) && Sound(plan, b)
    ensures Sound(plan, a + b)
  {
    forall i | 0 <= i < |a + b|
      ensures (a + b)[i] == (if i < |a| then a[i] else b[i - |a|])
    {
    }
  }

  /** The entries of the custom-data columns from the j-th on. */
  lemma {:induction false} CustomEntriesSoundFrom(plan: Plan, j: nat)
    requires FreshNames(plan.customs) && j <= |plan.customs|
    ensures Sound(plan, CustomEntries(plan.customs[j..]))
    decreases |plan.customs| - j
  {
    var customs := plan.customs;
    if j < |customs| {
      var n := customs[j].name;
      CustomEntriesSoundFrom(plan, j + 1);
      assert customs[j..][1..] == customs[j + 1..];
      assert Custom(n) in Columns(customs);
      assert Custom(n) in Schema(plan);
      var head := [Col(Custom(n)), Sep(" | ")];
      assert Sound(plan, head);
      SoundConcat(plan, head, CustomEntries(customs[j + 1..]));
    }
  }

  lemma CustomEntriesSound(plan: Plan)
    requires FreshNames(plan.customs)
    ensures Sound(plan, CustomEntries(plan.customs))
  {
    CustomEntriesSoundFrom(plan, 0);
    assert plan.customs[0..] == plan.customs;
  }

  /** The blocks of the corrected specification, one at a time. */
  lemma HeadSound(plan: Plan)
    ensures Sound(plan, HeadEntries(plan))
  {
  }

  lemma StateSound(plan: Plan, advanced: bool)
    requires plan.opts.state
    ensures Sound(plan, StateEntries(advanced))
  {
  }

  lemma EstimateSound(plan: Plan, estimateStart: bool)
    ensures Sound(plan, EstimateEntries(plan, estimateStart))
  {
  }

  lemma BoundsSolverSound(plan: Plan)
    ensures Sound(plan, BoundsSolverEntries(plan))
  {
  }

  lemma {:induction false} TailSound(plan: Plan, estimateStart: bool)
    requires FreshNames(plan.customs)
    ensures Sound(plan, TailEntries(plan, estimateStart))
  {
    var est := EstimateEntries(plan, estimateStart);
    var bs := BoundsSolverEntries(plan);
    var ce := CustomEntries(plan.customs);
    EstimateSound(plan, estimateStart);
    BoundsSolverSound(plan);
    CustomEntriesSound(plan);
    SoundConcat(plan, est, bs);
    SoundConcat(plan, est + bs, ce);
    assert Sound(plan, [Col(Name)]);
    SoundConcat(plan, est + bs + ce, [Col(Name)]);
  }

  /** Under the corrected specification every column it names is a field of
      every record, and every other entry is a separator. */
  lemma {:induction false} ColumnSpecSound(plan: Plan, hasState: bool)
    requires FreshNames(plan.customs)
    ensures Sound(plan, ColumnSpec(plan, hasState))
  {
    var o := plan.opts;
    var st := if hasState && o.state then StateEntries(o.advancedState) else [];
    HeadSound(plan);
    if hasState && o.state {
      StateSound(plan, o.advancedState);
    }
    TailSound(plan, !o.advancedState);
    SoundConcat(plan, HeadEntries(plan), st);
    SoundConcat(plan, HeadEntries(plan) + st, TailEntries(plan, !o.advancedState));
  }

  /** The specification as written names the state columns whenever some
      case has a state file, even under --no-state, where the records do
      not have them (with --estimate-end-time reading StartedAt sets the
      flag): the column "nowTime" is then not a field of the records. */
  lemma AsWrittenNamesMissingField(plan: Plan)
    requires !plan.opts.state
    ensures Col(NowTime) in ColumnSpecAsWritten(plan, true)
    ensures NowTime !in Schema(plan)
  {
    AsWrittenHasNowTime(plan);
    NowTimeNotInSchema(plan);
  }

  lemma AsWrittenHasNowTime(plan: Plan)
    ensures Col(NowTime) in ColumnSpecAsWritten(plan, true)
  {
    var head := HeadEntries(plan);
    var st := StateEntries(plan.opts.advancedState);
    var tail := TailEntries(plan, !plan.opts.advancedState);
    assert ColumnSpecAsWritten(plan, true) == head + st + tail;
    assert (head + st + tail)[|head|] == st[0];
  }

  lemma NowTimeNotInSchema(plan: Plan)
    requires !plan.opts.state
    ensures NowTime !in Schema(plan)
  {
    assert NowTime !in CustomKeys(plan);
  }

  /** The corrected specification leaves the state block out under
      --no-state. */
  lemma CorrectedOmitsNowTime(plan: Plan)
    requires !plan.opts.state && FreshNames(plan.customs)
    ensures Col(NowTime) !in ColumnSpec(plan, true)
  {
    ColumnSpecSound(plan, true);
    NowTimeNotInSchema(plan);
  }

  // ---------------------------------------------------------------------
  // Column widths

  /** Row k's displayed text in column f is w characters long. */
  predicate WidthAt(f: Field, rows: seq<Record>, show: (Field, Value) -> string, k: int, w: nat) {
    0 <= k < |rows| && f in rows[k] && w == |show(f, rows[k][f])|
  }

  /** lens[f]: the widest of the field name and its displayed values. */
  function ColumnWidth(f: Field, rows: seq<Record>, show: (Field, Value) -> string): nat
    requires forall k :: 0 <= k < |rows| ==> f in rows[k]
  {
    if |rows| == 0 then |Key(f)|
    else
      var last := |show(f, rows[|rows| - 1][f])|;
      var w0 := ColumnWidth(f, rows[..|rows| - 1], show);
      if last > w0 then last else w0
  }

  /** The width is the largest of the name's length and the rows' text
      lengths: at least each of them, and equal to one of them. */
  lemma {:induction false} ColumnWidthIsMax(f: Field, rows: seq<Record>, show: (Field, Value) -> string)
    requires forall k :: 0 <= k < |rows| ==> f in rows[k]
    ensures ColumnWidth(f, rows, show) >= |Key(f)|
    ensures forall k :: 0 <= k < |rows| ==> ColumnWidth(f, rows, show) >= |show(f, rows[k][f])|
    ensures var w := ColumnWidth(f, rows, show);
      w == |Key(f)| || exists k :: WidthAt(f, rows, show, k, w)
    decreases |rows|
  {
    if |rows| > 0 {
      var init := rows[..|rows| - 1];
      var w := ColumnWidth(f, rows, show);
      var w0 := ColumnWidth(f, init, show);
      ColumnWidthIsMax(f, init, show);
      assert forall k :: 0 <= k < |init| ==> init[k] == rows[k];
      if w != w0 {
        assert WidthAt(f, rows, show, |rows| - 1, w);
      } else if w0 != |Key(f)| {
        var k :| WidthAt(f, init, show, k, w0);
        assert WidthAt(f, rows, show, k, w);
      }
    }
  }

  // ---------------------------------------------------------------------
  // The format

  /** A piece of the format string: literal text, "%(f)Ns" or "%(f)s". */
  datatype Piece = Lit(text: string) | Padded(field: Field, width: nat) | Plain(field: Field)

  /** Every record has every field of keys. */
  predicate Covers(rows: seq<Record>, keys: set<Field>) {
    forall k, f :: 0 <= k < |rows| && f in keys ==> f in rows[k]
  }

  /** The lens dictionary: the width of every column. */
  function Widths(rows: seq<Record>, keys: set<Field>, show: (Field, Value) -> string): (lens: map<Field, nat>)
    requires Covers(rows, keys)
    ensures lens.Keys == keys
  {
    map f | f in keys :: ColumnWidth(f, rows, show)
  }

  /** The format built from the specification: an entry whose text is not
      a key of the records is copied literally, a key is padded to its
      column width, except the last entry, which is not padded. */
  function Format(spec: seq<Entry>, keys: set<Field>, lens: map<Field, nat>): (r: seq<Piece>)
    requires keys <= lens.Keys
    ensures |r| == |spec|
    ensures forall i :: 0 <= i < |r| ==> (r[i].Lit? <==> Parse(EntryText(spec[i])) !in keys)
    ensures forall i :: 0 <= i < |r| && r[i].Lit? ==> r[i].text == EntryText(spec[i])
    ensures forall i :: 0 <= i < |r| && !r[i].Lit? ==> r[i].field == Parse(EntryText(spec[i]))
    ensures forall i :: 0 <= i < |r| && r[i].Plain? ==> i == |r| - 1
    ensures |r| > 0 && !r[|r| - 1].Lit? ==> r[|r| - 1].Plain?
    ensures forall i :: 0 <= i < |r| && r[i].Padded? ==> r[i].width == lens[r[i].field]
  {
    seq(|spec|, i requires 0 <= i < |spec| =>
      var f := Parse(EntryText(spec[i]));
      if f !in keys then Lit(EntryText(spec[i]))
      else if i < |spec| - 1 then Padded(f, lens[f])
      else Plain(f))
  }

  /** For a sound specification over the records' own keys, the format
      copies exactly the separators and fills in exactly the columns, each
      with the field the entry names. */
  lemma FormatFollowsSpec(plan: Plan, spec: seq<Entry>, lens: map<Field, nat>)
    requires FreshNames(plan.customs) && Sound(plan, spec) && Schema(plan) <= lens.Keys
    ensures var r := Format(spec, Schema(plan), lens);
      forall i :: 0 <= i < |spec| ==>
        (r[i].Lit? <==> spec[i].Sep?) && (spec[i].Col? ==> r[i].field == spec[i].col)
  {
    var r := Format(spec, Schema(plan), lens);
    SeparatorsAreForeign();
    forall i | 0 <= i < |spec|
      ensures (r[i].Lit? <==> spec[i].Sep?) && (spec[i].Col? ==> r[i].field == spec[i].col)
    {
      match spec[i]
      case Sep(t) =>
        assert t in Separators;
        ForeignNotInSchema(plan, t);
      case Col(f) =>
        ParseKey(f);
    }
  }

  /** A column whose field the records lack is copied literally. */
  lemma LiteralWhereMissing(spec: seq<Entry>, keys: set<Field>, lens: map<Field, nat>, i: nat, f: Field)
    requires keys <= lens.Keys && i < |spec| && spec[i] == Col(f) && Creatable(f) && f !in keys
    ensures Lit(Key(f)) in Format(spec, keys, lens)
  {
    ParseKey(f);
    assert Format(spec, keys, lens)[i] == Lit(Key(f));
  }

  /** Under the specification as written, the missing state column is
      printed as its literal name in the header and in every row. */
  lemma AsWrittenPrintsName(plan: Plan, lens: map<Field, nat>)
    requires !plan.opts.state && Schema(plan) <= lens.Keys
    ensures Lit(Key(NowTime)) in Format(ColumnSpecAsWritten(plan, true), Schema(plan), lens)
  {
    var spec := ColumnSpecAsWritten(plan, true);
    AsWrittenNamesMissingField(plan);
    var i :| 0 <= i < |spec| && spec[i] == Col(NowTime);
    LiteralWhereMissing(spec, Schema(plan), lens, i, NowTime);
  }

  /** One piece filled in from the text of each field. */
  function Fill(p: Piece, text: Field -> string): string {
    match p
    case Lit(t) => t
    case Padded(f, w) => PadLeft(text(f), w)
    case Plain(f) => text(f)
  }

  /** format % d, with text giving the string each field is shown as. */
  function Render(pieces: seq<Piece>, text: Field -> string): string {
    RenderFrom(pieces, 0, text)
  }

  /** The pieces from index k on, filled in. */
  function RenderFrom(pieces: seq<Piece>, k: nat, text: Field -> string): string
    requires k <= |pieces|
    decreases |pieces| - k
  {
    if k == |pieces| then "" else Fill(pieces[k], text) + RenderFrom(pieces, k + 1, text)
  }

  // ---------------------------------------------------------------------
  // Alignment

  /** The text of every padded field fits its width. */
  predicate Fits(pieces: seq<Piece>, text: Field -> string) {
    forall i :: 0 <= i < |pieces| && pieces[i].Padded? ==> |text(pieces[i].field)| <= pieces[i].width
  }

  /** The characters a piece takes whatever the row: its text, or its
      width; an unpadded field takes what its text takes. */
  function Span(p: Piece): nat {
    match p
    case Lit(t) => |t|
    case Padded(_, w) => w
    case Plain(_) => 0
  }

  /** Where piece i starts in a rendered line. */
  function Offset(pieces: seq<Piece>, i: nat): nat
    requires i <= |pieces|
  {
    Between(pieces, 0, i)
  }

  /** The characters pieces k up to i take. */
  function Between(pieces: seq<Piece>, k: nat, i: nat): nat
    requires k <= i <= |pieces|
    decreases i - k
  {
    if k == i then 0 else Span(pieces[k]) + Between(pieces, k + 1, i)
  }

  /** A piece other than an unpadded one whose text fits takes its span. */
  lemma FillSpan(p: Piece, text: Field -> string)
    requires !p.Plain? && (p.Padded? ==> |text(p.field)| <= p.width)
    ensures |Fill(p, text)| == Span(p)
  {
  }

  /** A slice of a line made of x then y, taken after x, is a slice of y. */
  lemma SliceAfter(line: string, x: string, y: string, cell: string, o: nat, w: nat, start: nat)
    requires line == x + y && o + w <= |y| && y[o..o + w] == cell && start == |x| + o
    ensures start + w <= |line| && line[start..start + w] == cell
  {
    assert line[|x|..] == y;
  }

  /** The first |x| characters of x then y are x. */
  lemma SliceBefore(line: string, x: string, y: string, w: nat, start: nat)
    requires line == x + y && w == |x| && start == 0
    ensures start + w <= |line| && line[start..start + w] == x
  {
  }

  /** Piece i, padded, sits at the span of the pieces k up to i in the
      line rendered from k, when those are not unpadded and their texts fit. */
  lemma {:induction false} CellFrom(pieces: seq<Piece>, k: nat, i: nat, text: Field -> string)
    requires k <= i < |pieces| && pieces[i].Padded? && |text(pieces[i].field)| <= pieces[i].width
    requires forall j :: k <= j < i ==> !pieces[j].Plain? && (pieces[j].Padded? ==> |text(pieces[j].field)| <= pieces[j].width)
    ensures Between(pieces, k, i) + pieces[i].width <= |RenderFrom(pieces, k, text)|
    ensures RenderFrom(pieces, k, text)[Between(pieces, k, i)..Between(pieces, k, i) + pieces[i].width] == Fill(pieces[i], text)
    decreases i - k
  {
    var line := RenderFrom(pieces, k, text);
    var head := Fill(pieces[k], text);
    var tail := RenderFrom(pieces, k + 1, text);
    FillSpan(pieces[k], text);
    if k == i {
      SliceBefore(line, head, tail, pieces[i].width, Between(pieces, k, i));
    } else {
      CellFrom(pieces, k + 1, i, text);
      SliceAfter(line, head, tail, Fill(pieces[i], text), Between(pieces, k + 1, i), pieces[i].width, Between(pieces, k, i));
    }
  }

  /** Each padded column sits at the same offset in every line whose texts
      fit the widths, and holds its text right-justified. */
  lemma CellAt(pieces: seq<Piece>, i: nat, text: Field -> string)
    requires i < |pieces| && Fits(pieces, text) && pieces[i].Padded?
    requires forall j :: 0 <= j < i ==> !pieces[j].Plain?
    ensures Offset(pieces, i) + pieces[i].width <= |Render(pieces, text)|
    ensures Render(pieces, text)[Offset(pieces, i)..Offset(pieces, i) + pieces[i].width]
            == PadLeft(text(pieces[i].field), pieces[i].width)
  {
    CellFrom(pieces, 0, i, text);
  }

  // ---------------------------------------------------------------------
  // The table

  /** The string a field of a row is printed as. */
  function Cell(row: Record, show: (Field, Value) -> string, f: Field): string {
    if f in row then show(f, row[f]) else ""
  }

  /** The text of each field of a row. */
  function RowText(row: Record, show: (Field, Value) -> string): Field -> string {
    f => Cell(row, show, f)
  }

  /** The header (each field's own name), a line of dashes as long as the
      header, and one line per record. */
  function Table(pieces: seq<Piece>, rows: seq<Record>, show: (Field, Value) -> string): (lines: seq<string>)
    ensures |lines| == |rows| + 2
    ensures lines[0] == Render(pieces, Key)
    ensures |lines[1]| == |lines[0]| && forall k :: 0 <= k < |lines[1]| ==> lines[1][k] == '-'
  {
    var header := Render(pieces, Key);
    [header, Repeat('-', |header|)] + seq(|rows|, k requires 0 <= k < |rows| => Render(pieces, RowText(rows[k], show)))
  }

  /** Every column of keys is at least as wide as its name and as the
      text of each row. */
  predicate WideEnough(lens: map<Field, nat>, keys: set<Field>, rows: seq<Record>, show: (Field, Value) -> string) {
    forall f :: f in keys ==> f in lens && lens[f] >= |Key(f)| && forall k :: 0 <= k < |rows| ==> lens[f] >= |Cell(rows[k], show, f)|
  }

  /** The widths the source computes are wide enough. */
  lemma WidthsWideEnough(rows: seq<Record>, keys: set<Field>, show: (Field, Value) -> string)
    requires Covers(rows, keys)
    ensures WideEnough(Widths(rows, keys, show), keys, rows, show)
  {
    var lens := Widths(rows, keys, show);
    forall f | f in keys
      ensures lens[f] >= |Key(f)| && forall k :: 0 <= k < |rows| ==> lens[f] >= |Cell(rows[k], show, f)|
    {
      ColumnWidthIsMax(f, rows, show);
    }
  }

  /** The header and every row fit wide-enough widths. */
  lemma FormatFits(spec: seq<Entry>, keys: set<Field>, lens: map<Field, nat>, rows: seq<Record>, show: (Field, Value) -> string)
    requires keys <= lens.Keys && WideEnough(lens, keys, rows, show)
    ensures Fits(Format(spec, keys, lens), Key)
    ensures forall k :: 0 <= k < |rows| ==> Fits(Format(spec, keys, lens), RowText(rows[k], show))
  {
  }

  /** In a table whose header and rows fit the widths, each padded column
      sits at the same offset in the header and in every row, holding the
      field's name or the row's text right-justified. */
  lemma TableAligned(pieces: seq<Piece>, rows: seq<Record>, show: (Field, Value) -> string, k: int, i: int)
    requires 0 <= k < |rows| && 0 <= i < |pieces| && pieces[i].Padded?
    requires forall j :: 0 <= j < |pieces| && pieces[j].Plain? ==> j == |pieces| - 1
    requires Fits(pieces, Key) && Fits(pieces, RowText(rows[k], show))
    ensures var lines := Table(pieces, rows, show);
      var o := Offset(pieces, i);
      var w := pieces[i].width;
      && o + w <= |lines[0]| && o + w <= |lines[k + 2]|
      && lines[0][o..o + w] == PadLeft(Key(pieces[i].field), w)
      && lines[k + 2][o..o + w] == PadLeft(Cell(rows[k], show, pieces[i].field), w)
  {
    var row := RowText(rows[k], show);
    CellAt(pieces, i, Key);
    CellAt(pieces, i, row);
    var lines := Table(pieces, rows, show);
    assert lines[k + 2] == Render(pieces, row);
  }
}

=== FILE: list_cases.dfy ===
/**
 The listing as a whole (ListCases.run): parse the custom-data
 specifications, scan the directories, sort the records, and print either
 "No cases found", the raw records, or the table followed by the total
 disk usage.
 */
module ListCases {
  import opened Results
  import opened Text
  import opened Values
  import opened Fields
  import opened Files
  import opened Failures
  import opened CustomData
  import opened CaseRecords
  import opened Sorting
  import opened Layout

  /** What a run prints. */
  datatype Output =
    /** "No cases found". */
    | NoCases
    /** --dump: the records themselves. */
    | Dump(records: seq<Record>)
    /** The header, the dash line, one line per case and, with --disk-usage,
        the total. */
    | Printed(lines: seq<string>)

  /** The directories to scan: those given, or the current one. */
  function Roots(dirs: seq<string>): seq<string> {
    if |dirs| == 0 then ["."] else dirs
  }

  /** The valid case directories a run reports on, in scanning order. */
  function Cases(fs: FileSystem, svc: Services, dirs: seq<string>): seq<string> {
    ValidPaths(svc, CaseDirs(fs, Roots(dirs)))
  }

  /** The plan for the parsed specifications. */
  function PlanFor(opts: Options, customs: seq<CustomSpec>): Plan {
    Plan(opts, customs, SolverFor(opts))
  }

  /** The format of the table: the specification against the fields of
      the first record. */
  function ListingFormat(spec: seq<Entry>, records: seq<Record>, show: (Field, Value) -> string): seq<Piece>
    requires |records| > 0 && Covers(records, records[0].Keys)
  {
    Format(spec, records[0].Keys, Widths(records, records[0].Keys, show))
  }

  /** The printed table, with the total disk usage after it when sizes
      were requested. */
  function Listing(spec: seq<Entry>, records: seq<Record>, total: int, diskusage: bool,
                   show: (Field, Value) -> string, humanSize: int -> string): (lines: seq<string>)
    requires |records| > 0 && Covers(records, records[0].Keys)
    ensures |lines| == |records| + 2 + (if diskusage then 1 else 0)
    ensures |lines[1]| == |lines[0]| && forall k :: 0 <= k < |lines[1]| ==> lines[1][k] == '-'
    ensures diskusage ==> lines[|lines| - 1] == "Total disk-usage: " + humanSize(total)
  {
    var pieces := ListingFormat(spec, records, show);
    Layout.Table(pieces, records, show)
    + (if diskusage then ["Total disk-usage: " + humanSize(total)] else [])
  }

  /** The lines before the total are the table of the format. */
  lemma ListingTable(spec: seq<Entry>, records: seq<Record>, total: int, diskusage: bool,
                     show: (Field, Value) -> string, humanSize: int -> string)
    requires |records| > 0 && Covers(records, records[0].Keys)
    ensures var lines := Listing(spec, records, total, diskusage, show, humanSize);
      var table := Layout.Table(ListingFormat(spec, records, show), records, show);
      forall j :: 0 <= j < |table| ==> lines[j] == table[j]
  {
  }

  /** The format built from the records fits them: the header and every
      row fit the column widths, and only the last piece is unpadded, so
      the table of the records is aligned (Layout.TableAligned). */
  lemma ListingFormatFits(spec: seq<Entry>, records: seq<Record>, show: (Field, Value) -> string)
    requires |records| > 0 && Covers(records, records[0].Keys)
    ensures var pieces := ListingFormat(spec, records, show);
      && Fits(pieces, Key)
      && (forall k :: 0 <= k < |records| ==> Fits(pieces, RowText(records[k], show)))
      && (forall j :: 0 <= j < |pieces| && pieces[j].Plain? ==> j == |pieces| - 1)
      && (forall j :: 0 <= j < |pieces| && !pieces[j].Lit? ==> pieces[j].field in records[0])
  {
    var keys := records[0].Keys;
    WidthsWideEnough(records, keys, show);
    FormatFits(spec, keys, Widths(records, keys, show), records, show);
  }

  /** With records of the plan's fields, every separator of the
      specification is printed as itself and every column is filled in with
      the field it names. */
  lemma ListingColumns(plan: Plan, records: seq<Record>, hasState: bool, show: (Field, Value) -> string)
    requires FreshNames(plan.customs)
    requires |records| > 0 && Uniform(plan, records)
    ensures Covers(records, records[0].Keys)
    ensures var spec := ColumnSpec(plan, hasState);
      var pieces := ListingFormat(spec, records, show);
      |pieces| == |spec|
      && forall i :: 0 <= i < |spec| ==>
           (pieces[i].Lit? <==> spec[i].Sep?) && (spec[i].Col? ==> pieces[i].field == spec[i].col)
  {
    assert records[0].Keys == Schema(plan);
    ColumnSpecSound(plan, hasState);
    FormatFollowsSpec(plan, ColumnSpec(plan, hasState), Widths(records, records[0].Keys, show));
  }

  /** The lines are the listing, with the columns of spec, of the records
      sorted by the key (descending under --reverse, stably), followed by
      the total when sizes were requested. */
  ghost predicate PrintsTable(plan: Plan, agg: Totals, spec: seq<Entry>,
                              show: (Field, Value) -> string, humanSize: int -> string, lines: seq<string>) {
    && SortBy(agg.records, plan.opts.sortKey, plan.opts.reverse).Ok?
    && var sorted := SortBy(agg.records, plan.opts.sortKey, plan.opts.reverse).value;
       && |sorted| > 0 && Covers(sorted, sorted[0].Keys)
       && lines == Listing(spec, sorted, agg.totalDiskusage, plan.opts.diskusage, show, humanSize)
  }

  /** What the part of ListCases.run after the scan promises with the
      columns of spec: it fails exactly when there are cases and the sort key
      is not one of their fields; no cases give the "no cases" message; a
      dump is the records sorted by the key; a table is the listing of the
      sorted records, with a header, a dash line, one row per case and, with
      sizes, a total line. */
  ghost predicate Reports(plan: Plan, agg: Totals, spec: seq<Entry>,
                          show: (Field, Value) -> string, humanSize: int -> string, r: Result<Output, Failure>) {
    && (r.Err? <==> |agg.records| > 0 && Parse(plan.opts.sortKey) !in Schema(plan))
    && (r.Err? ==> r.error == MissingSortKey(plan.opts.sortKey))
    && (r.Ok? ==> (r.value.NoCases? <==> |agg.records| == 0))
    && (r.Ok? && r.value.Dump? ==>
      && plan.opts.dump
      && |r.value.records| == |agg.records|
      && multiset(r.value.records) == multiset(agg.records)
      && AllHave(r.value.records, Parse(plan.opts.sortKey))
      && Sorted(r.value.records, Parse(plan.opts.sortKey), plan.opts.reverse)
      && SortBy(agg.records, plan.opts.sortKey, plan.opts.reverse) == Ok(r.value.records))
    && (r.Ok? && r.value.Printed? ==>
      && !plan.opts.dump
      && |r.value.lines| == |agg.records| + 2 + (if plan.opts.diskusage then 1 else 0)
      && PrintsTable(plan, agg, spec, show, humanSize, r.value.lines))
  }

  /** Sort, then report with the given column specification. */
  function Present(plan: Plan, agg: Totals, spec: seq<Entry>,
                   show: (Field, Value) -> string, humanSize: int -> string): (r: Result<Output, Failure>)
    requires Uniform(plan, agg.records)
    ensures Reports(plan, agg, spec, show, humanSize, r)
  {
    var opts := plan.opts;
    assert |agg.records| > 0 ==> (AllHave(agg.records, Parse(opts.sortKey)) <==> Parse(opts.sortKey) in agg.records[0]);
    match SortBy(agg.records, opts.sortKey, opts.reverse)
    case Err(e) => Err(e)
    case Ok(sorted) =>
      RunUniform(plan, agg.records, sorted);
      if |sorted| == 0 then Ok(NoCases)
      else if opts.dump then Ok(Dump(sorted))
      else Ok(Printed(Listing(spec, sorted, agg.totalDiskusage, opts.diskusage, show, humanSize)))
  }

  /** The part of ListCases.run after the scan as the program has it: the
      state block of the table follows the state flag alone. */
  function Report(plan: Plan, agg: Totals, show: (Field, Value) -> string, humanSize: int -> string): (r: Result<Output, Failure>)
    requires Uniform(plan, agg.records)
    ensures Reports(plan, agg, ColumnSpecAsWritten(plan, agg.hasState), show, humanSize, r)
  {
    Present(plan, agg, ColumnSpecAsWritten(plan, agg.hasState), show, humanSize)
  }

  /** The same with the state block shown only when the state fields were
      collected. */
  function ReportCorrected(plan: Plan, agg: Totals, show: (Field, Value) -> string, humanSize: int -> string): (r: Result<Output, Failure>)
    requires Uniform(plan, agg.records)
    ensures Reports(plan, agg, ColumnSpec(plan, agg.hasState), show, humanSize, r)
  {
    Present(plan, agg, ColumnSpec(plan, agg.hasState), show, humanSize)
  }

  /** The two reports differ only when the flag is set under --no-state. */
  lemma ReportsAgree(plan: Plan, agg: Totals, show: (Field, Value) -> string, humanSize: int -> string)
    requires Uniform(plan, agg.records)
    requires plan.opts.state || !agg.hasState
    ensures Report(plan, agg, show, humanSize) == ReportCorrected(plan, agg, show, humanSize)
  {
    assert ColumnSpecAsWritten(plan, agg.hasState) == ColumnSpec(plan, agg.hasState);
  }

  /** Row k of a printed table is the k-th record in sort order, rendered
      with the table's format; the rows are in sort order. */
  lemma PrintedRows(plan: Plan, agg: Totals, spec: seq<Entry>, show: (Field, Value) -> string,
                    humanSize: int -> string, lines: seq<string>, k: int)
    requires PrintsTable(plan, agg, spec, show, humanSize, lines)
    requires 0 <= k < |agg.records|
    ensures var sorted := SortBy(agg.records, plan.opts.sortKey, plan.opts.reverse).value;
      && Sorted(sorted, Parse(plan.opts.sortKey), plan.opts.reverse)
      && multiset(sorted) == multiset(agg.records)
      && |sorted| == |agg.records|
      && k + 2 < |lines|
      && lines[k + 2] == Render(ListingFormat(spec, sorted, show), RowText(sorted[k], show))
  {
    var sorted := SortBy(agg.records, plan.opts.sortKey, plan.opts.reverse).value;
    assert |multiset(sorted)| == |multiset(agg.records)|;
    ListingTable(spec, sorted, agg.totalDiskusage, plan.opts.diskusage, show, humanSize);
  }

  /** Under --no-state with the flag set, the table the program prints has
      the literal text "nowTime" among its pieces, in the header and in every
      row: no record has that field. */
  lemma AsWrittenListingNamesNowTime(plan: Plan, records: seq<Record>, show: (Field, Value) -> string)
    requires !plan.opts.state
    requires |records| > 0 && Uniform(plan, records)
    ensures Covers(records, records[0].Keys)
    ensures Lit(Key(NowTime)) in ListingFormat(ColumnSpecAsWritten(plan, true), records, show)
  {
    assert records[0].Keys == Schema(plan);
    AsWrittenPrintsName(plan, Widths(records, records[0].Keys, show));
  }

  /** ListCases.run once the specifications are parsed: scan, sort and
      report. */
  function ListWith(plan: Plan, dirs: seq<string>, fs: FileSystem, svc: Services,
                    show: (Field, Value) -> string, humanSize: int -> string): (r: Result<Output, Failure>)
    ensures |plan.customs| == 0 ==>
      (r.Err? <==> |Cases(fs, svc, dirs)| > 0 && Parse(plan.opts.sortKey) !in Schema(plan))
    ensures r.Ok? ==> (r.value.NoCases? <==> |Cases(fs, svc, dirs)| == 0)
    ensures r.Ok? && r.value.Dump? ==>
      && plan.opts.dump && |r.value.records| == |Cases(fs, svc, dirs)|
      && AllHave(r.value.records, Parse(plan.opts.sortKey))
      && Sorted(r.value.records, Parse(plan.opts.sortKey), plan.opts.reverse)
    ensures r.Ok? && r.value.Printed? ==>
      && !plan.opts.dump
      && |r.value.lines| == |Cases(fs, svc, dirs)| + 2 + (if plan.opts.diskusage then 1 else 0)
    ensures Aggregate(plan, fs, svc, CaseDirs(fs, Roots(dirs))).Err? ==>
      r == Err(Aggregate(plan, fs, svc, CaseDirs(fs, Roots(dirs))).error)
    ensures Aggregate(plan, fs, svc, CaseDirs(fs, Roots(dirs))).Ok? ==>
      var agg := Aggregate(plan, fs, svc, CaseDirs(fs, Roots(dirs))).value;
      Reports(plan, agg, ColumnSpecAsWritten(plan, agg.hasState), show, humanSize, r)
  {
    var scanned := Aggregate(plan, fs, svc, CaseDirs(fs, Roots(dirs)));
    if scanned.Err? then Err(scanned.error)
    else
      var agg := scanned.value;
      assert |agg.records| == |Cases(fs, svc, dirs)|;
      Report(plan, agg, show, humanSize)
  }

  /** ListCases.run. */
  function Run(opts: Options, dirs: seq<string>, fs: FileSystem, svc: Services,
               show: (Field, Value) -> string, humanSize: int -> string): (r: Result<Output, Failure>)
    ensures ParseSpecs(opts.customData).Err? ==> r.Err? && FirstBadSpec(opts.customData, 0, r.error)
    ensures ParseSpecs(opts.customData).Ok? ==>
      r == ListWith(PlanFor(opts, ParseSpecs(opts.customData).value), dirs, fs, svc, show, humanSize)
  {
    match ParseSpecs(opts.customData)
    case Err(e) => Err(e)
    case Ok(customs) => ListWith(PlanFor(opts, customs), dirs, fs, svc, show, humanSize)
  }

  /** Without custom data the only error is a sort key that no record has,
      and it happens exactly when there is some case to sort. */
  lemma RunWithoutCustomData(opts: Options, dirs: seq<string>, fs: FileSystem, svc: Services,
                             show: (Field, Value) -> string, humanSize: int -> string)
    requires |opts.customData| == 0
    ensures var r := Run(opts, dirs, fs, svc, show, humanSize);
      && (r.Err? <==> |Cases(fs, svc, dirs)| > 0 && Parse(opts.sortKey) !in BaseKeys() + StateKeys(opts))
      && (r.Err? ==> r.error == MissingSortKey(opts.sortKey))
  {
    var plan := PlanFor(opts, []);
    assert ParseSpecs(opts.customData) == Ok([]);
    assert Schema(plan) == BaseKeys() + StateKeys(opts);
  }

  /** Sorting keeps every record, so the sorted records share the plan's
      fields too. */
  lemma RunUniform(plan: Plan, records: seq<Record>, sorted: seq<Record>)
    requires Uniform(plan, records) && multiset(sorted) == multiset(records)
    ensures |sorted| == |records|
    ensures Uniform(plan, sorted)
    ensures |sorted| > 0 ==> Covers(sorted, sorted[0].Keys)
  {
    assert |multiset(sorted)| == |multiset(records)|;
    forall k | 0 <= k < |sorted|
      ensures sorted[k].Keys == Schema(plan)
    {
      assert sorted[k] in multiset(records);
    }
  }
}

=== FILE: records.dfy ===
/**
 Building one record per case directory (the body of the scanning loop of
 ListCases.run) and aggregating the records, the disk-usage total and the
 "some case has state files" flag over all directories.
 */
module CaseRecords {
  import opened Results
  import opened Text
  import opened Values
  import opened Files
  import opened Failures
  import opened StateFiles
  import opened CustomData
  import opened Fields

  /** The command-line options of the listing. */
  datatype Options = Options(
    diskusage: bool,
    parallel: bool,
    state: bool,
    advancedState: bool,
    estimateEndTime: bool,
    startEndTime: bool,
    customData: seq<string>,
    solverNameForCustom: Option<string>,
    sortKey: string,
    reverse: bool,
    dump: bool)

  /** What the case inspector and the other collaborators report about one
      valid case directory. */
  datatype CaseData = CaseData(
    /** The time directories, in order (SolutionDirectory.getTimes). */
    times: seq<string>,
    /** The number of processor directories (SolutionDirectory.nrProcs). */
    procs: int,
    /** The times of the parallel run (SolutionDirectory.getParallelTimes). */
    parallelTimes: seq<string>,
    /** The recursive size of the case in bytes (diskUsage). */
    diskUsage: nat,
    /** startTime and endTime from the controlDict, or None when it cannot
        be parsed with or without macro expansion. */
    controlDict: Option<(Value, Value)>,
    /** The extrapolated end time of a running case, or None when the
        extrapolation gives no positive fraction. */
    estimate: Value)

  /** The outcome of looking at one directory: reading it failed with an
      OSError, it is not a valid case, it is one, or it is one whose reading
      raises an OSError only after its disk usage was counted and before any
      state file is read (listing or stat'ing its processor directories). */
  datatype Probe = Unreadable | NotACase | Valid(data: CaseData) | FailsLate(late: CaseData)

  /** The collaborators the record builder calls: the case inspector, the
      cache deserialiser, and the float() and time-stamp parsers applied to
      state-file text (None where they raise ValueError). */
  datatype Services = Services(
    inspect: string -> Probe,
    load: string -> Value,
    parseFloat: string -> Option<real>,
    parseTime: string -> Option<real>)

  /** The configuration fixed before any case is read: the options, the
      parsed custom-data specifications, and the solver whose cache files
      are read (None means auto-detection). */
  datatype Plan = Plan(opts: Options, customs: seq<CustomSpec>, solverName: Option<string>)

  /** A solver name given on the command line counts only when non-empty. */
  function SolverFor(opts: Options): Option<string> {
    match opts.solverNameForCustom
    case Some(s) => if s == "" then None else Some(s)
    case None => None
  }

  /** Auto-detection of the solver is used when custom data is requested
      without a solver name. */
  predicate UsesSolverInData(plan: Plan) {
    |plan.customs| > 0 && plan.solverName.None?
  }

  // ---------------------------------------------------------------------
  // The fields of a record

  /** The fields every record has. */
  function BaseKeys(): set<Field> {
    {Mtime, First, Last, NrSteps, Procs, PFirst, PLast, NrParallel, Name, Diskusage}
  }

  /** The fields read from the state files and the controlDict. */
  function StateKeys(opts: Options): set<Field> {
    (if opts.state then {NowTime, LastOutput, State} else {})
    + (if opts.state || opts.estimateEndTime then {StartedAt} else {})
    + (if opts.startEndTime || opts.estimateEndTime then {StartTime, EndTime} else {})
    + (if opts.estimateEndTime then {EndTimeEstimate} else {})
  }

  /** The custom-data fields: one per specification, plus the detected
      solver when it is auto-detected. */
  function CustomKeys(plan: Plan): set<Field> {
    if |plan.customs| == 0 then {}
    else (if UsesSolverInData(plan) then {Solver} else {}) + Columns(plan.customs)
  }

  /** The custom-data column names are all of the custom shape. */
  predicate FreshNames(customs: seq<CustomSpec>) {
    forall k :: 0 <= k < |customs| ==> ShapedLikeCustom(customs[k].name)
  }

  /** Parsing yields custom-data columns of that shape only, so no column
      can share its dictionary key with a fixed field. */
  lemma {:induction false} ParsedNamesFresh(specs: seq<string>)
    requires ParseSpecs(specs).Ok?
    ensures FreshNames(ParseSpecs(specs).value)
  {
    var customs := ParseSpecs(specs).value;
    forall k | 0 <= k < |customs|
      ensures ShapedLikeCustom(customs[k].name)
    {
      assert ParseSpec(specs[k], k) == Ok(customs[k]);
      if CountChar(specs[k], '=') == 0 {
        ParseUnnamedSpec(specs[k], k);
        assert customs[k].name[0] == 'C';
      } else {
        ParseNamedSpec(specs[k], k);
      }
    }
  }

  /** The fields every record of a run has; they depend only on the plan,
      never on the case. */
  function Schema(plan: Plan): set<Field> {
    BaseKeys() + StateKeys(plan.opts) + CustomKeys(plan)
  }

  /** re.match("processor[0-9]+", f): "processor" followed by a digit at
      the start of f. */
  predicate IsProcessorDir(f: string) {
    |f| > 9 && f[..9] == "processor" && IsDigit(f[9])
  }

  /** The modification time of an entry of the case directory. */
  function EntryMtime(fs: FileSystem, caseDir: string, f: string): int {
    fs.mtime(PathJoin(caseDir, f))
  }

  /** Entry k is a processor directory whose modification time is t. */
  predicate ProcessorMtimeAt(fs: FileSystem, caseDir: string, entries: seq<string>, k: int, t: int) {
    0 <= k < |entries| && IsProcessorDir(entries[k]) && t == EntryMtime(fs, caseDir, entries[k])
  }

  /** The newest of m and the modification times of the processor
      directories among entries. */
  function LatestMtime(fs: FileSystem, caseDir: string, entries: seq<string>, m: int): (r: int)
    ensures r >= m
    ensures r == m || exists k :: ProcessorMtimeAt(fs, caseDir, entries, k, r)
  {
    if |entries| == 0 then m
    else
      var rest := LatestMtime(fs, caseDir, entries[1..], m);
      var t := EntryMtime(fs, caseDir, entries[0]);
      assert forall k :: 1 <= k < |entries| ==> entries[k] == entries[1..][k - 1];
      if IsProcessorDir(entries[0]) && t > rest then
        assert ProcessorMtimeAt(fs, caseDir, entries, 0, t);
        t
      else
        assert rest != m ==> exists k :: ProcessorMtimeAt(fs, caseDir, entries, k, rest) by {
          if rest != m {
            var k :| ProcessorMtimeAt(fs, caseDir, entries[1..], k, rest);
            assert ProcessorMtimeAt(fs, caseDir, entries, k + 1, rest);
          }
        }
        rest
  }

  /** No processor directory among the entries is newer than the result. */
  lemma {:induction false} LatestMtimeIsNewest(fs: FileSystem, caseDir: string, entries: seq<string>, m: int)
    ensures forall k :: 0 <= k < |entries| && IsProcessorDir(entries[k]) ==>
      LatestMtime(fs, caseDir, entries, m) >= EntryMtime(fs, caseDir, entries[k])
  {
    if |entries| > 0 {
      LatestMtimeIsNewest(fs, caseDir, entries[1..], m);
      forall k | 1 <= k < |entries| && IsProcessorDir(entries[k])
        ensures LatestMtime(fs, caseDir, entries[1..], m) >= EntryMtime(fs, caseDir, entries[k])
      {
        assert entries[k] == entries[1..][k - 1];
      }
    }
  }

  /** The mtime field: the case directory's, or with --parallel-info the
      newest of it and its processor directories. */
  function CaseMtime(fs: FileSystem, caseDir: string, parallel: bool): int {
    var m := fs.mtime(caseDir);
    if parallel then LatestMtime(fs, caseDir, fs.listdir(caseDir), m) else m
  }

  /** What the fields every record has hold: the case path; the mtime of
      the directory, or the newest of it and its processor directories under
      --parallel-info; the first and last time ("None" without times) and
      their count; the processor count; the parallel times' first, last and
      count, all -1 unless requested and the first two -1 without parallel
      times; the disk usage, -1 unless requested. */
  ghost predicate BaseValues(opts: Options, fs: FileSystem, name: string, d: CaseData, r: Record) {
    && r.Keys == BaseKeys()
    && r[Name] == Str(name)
    && (!opts.parallel ==> r[Mtime] == Int(fs.mtime(name)))
    && (opts.parallel ==> r[Mtime] == Int(LatestMtime(fs, name, fs.listdir(name), fs.mtime(name))))
    && r[NrSteps] == Int(|d.times|)
    && (|d.times| == 0 ==> r[First] == Str("None") && r[Last] == Str("None"))
    && (|d.times| > 0 ==> r[First] == Str(d.times[0]) && r[Last] == Str(d.times[|d.times| - 1]))
    && r[Procs] == Int(d.procs)
    && (!opts.parallel ==> r[PFirst] == Int(-1) && r[PLast] == Int(-1) && r[NrParallel] == Int(-1))
    && (opts.parallel ==> r[NrParallel] == Int(|d.parallelTimes|))
    && (opts.parallel && |d.parallelTimes| == 0 ==> r[PFirst] == Int(-1) && r[PLast] == Int(-1))
    && (opts.parallel && |d.parallelTimes| > 0 ==>
          r[PFirst] == Str(d.parallelTimes[0]) && r[PLast] == Str(d.parallelTimes[|d.parallelTimes| - 1]))
    && r[Diskusage] == (if opts.diskusage then Int(d.diskUsage) else Int(-1))
  }

  /** The fields every record has. */
  function BaseFields(opts: Options, fs: FileSystem, name: string, d: CaseData): (r: Record)
    ensures r.Keys == BaseKeys()
    ensures BaseValues(opts, fs, name, d, r)
  {
    var times := d.times;
    var pTimes := d.parallelTimes;
    map[
      Mtime := Int(CaseMtime(fs, name, opts.parallel)),
      First := if |times| > 0 then Str(times[0]) else Str("None"),
      Last := if |times| > 0 then Str(times[|times| - 1]) else Str("None"),
      NrSteps := Int(|times|),
      Procs := Int(d.procs),
      PFirst := if opts.parallel && |pTimes| > 0 then Str(pTimes[0]) else Int(-1),
      PLast := if opts.parallel && |pTimes| > 0 then Str(pTimes[|pTimes| - 1]) else Int(-1),
      NrParallel := if opts.parallel then Int(|pTimes|) else Int(-1),
      Name := Str(name),
      Diskusage := if opts.diskusage then Int(d.diskUsage) else Int(-1)]
  }

  /** A state-file timestamp: seconds since the epoch, or "nix" when the
      text does not parse. */
  function Stamp(svc: Services, text: string): Value {
    match svc.parseTime(text)
    case Some(t) => Float(t)
    case None => Str("nix")
  }

  /** float() of the CurrentTime text, None where it raises ValueError. */
  function NowTimeOf(svc: Services, text: string): Value {
    match svc.parseFloat(text)
    case Some(x) => Float(x)
    case None => Null
  }

  /** The state file exists for the case. */
  predicate HasStateFile(fs: FileSystem, caseDir: string, suffix: string) {
    fs.pathExists(StateFile(caseDir, suffix))
  }

  /** Some state file the options make the builder read exists. */
  predicate ReadsSomeState(opts: Options, fs: FileSystem, caseDir: string) {
    || (opts.state && (HasStateFile(fs, caseDir, "CurrentTime")
                       || HasStateFile(fs, caseDir, "LastOutputSeen")
                       || HasStateFile(fs, caseDir, "TheState")))
    || ((opts.state || opts.estimateEndTime) && HasStateFile(fs, caseDir, "StartedAt"))
    || (opts.estimateEndTime && HasStateFile(fs, caseDir, "TheState"))
  }

  /** The values the state fields a record has must hold: what the state
      files and the controlDict say, field by field. */
  ghost predicate StateValues(opts: Options, fs: FileSystem, svc: Services, caseDir: string, d: CaseData, rec: Record) {
    && StatusValues(opts, fs, svc, caseDir, rec)
    && StartValues(opts, fs, svc, caseDir, rec)
    && BoundsValues(opts, d, rec)
    && EstimateValues(opts, fs, caseDir, d, rec)
  }

  ghost predicate StatusValues(opts: Options, fs: FileSystem, svc: Services, caseDir: string, rec: Record) {
    opts.state ==>
      && NowTime in rec && rec[NowTime] == NowTimeOf(svc, StateText(fs, caseDir, "CurrentTime"))
      && LastOutput in rec && rec[LastOutput] == Stamp(svc, StateText(fs, caseDir, "LastOutputSeen"))
      && State in rec && rec[State] == Str(StateText(fs, caseDir, "TheState"))
  }

  ghost predicate StartValues(opts: Options, fs: FileSystem, svc: Services, caseDir: string, rec: Record) {
    opts.state || opts.estimateEndTime ==>
      StartedAt in rec && rec[StartedAt] == Stamp(svc, StateText(fs, caseDir, "StartedAt"))
  }

  ghost predicate BoundsValues(opts: Options, d: CaseData, rec: Record) {
    opts.startEndTime || opts.estimateEndTime ==>
      && StartTime in rec && EndTime in rec
      && (match d.controlDict
          case Some((s, e)) => rec[StartTime] == s && rec[EndTime] == e
          case None => rec[StartTime] == Null && rec[EndTime] == Null)
  }

  ghost predicate EstimateValues(opts: Options, fs: FileSystem, caseDir: string, d: CaseData, rec: Record) {
    opts.estimateEndTime ==>
      && EndTimeEstimate in rec
      && rec[EndTimeEstimate] == if StateText(fs, caseDir, "TheState") == "Running" then d.estimate else Null
  }

  /** The current time, the time of the last output and the run state
      (only without --no-state). */
  function StatusPart(opts: Options, fs: FileSystem, svc: Services, caseDir: string, h: bool): (r: (Record, bool))
    ensures r.0.Keys == if opts.state then {NowTime, LastOutput, State} else {}
    ensures r.1 <==> h || (opts.state && (HasStateFile(fs, caseDir, "CurrentTime")
                                          || HasStateFile(fs, caseDir, "LastOutputSeen")
                                          || HasStateFile(fs, caseDir, "TheState")))
    ensures opts.state && !HasStateFile(fs, caseDir, "LastOutputSeen") ==> r.0[LastOutput] == Stamp(svc, "")
    ensures StatusValues(opts, fs, svc, caseDir, r.0)
  {
    if !opts.state then (map[], h)
    else
      var now := ReadState(fs, caseDir, "CurrentTime", "", h);
      var out := ReadState(fs, caseDir, "LastOutputSeen", "", now.hasState);
      var st := ReadState(fs, caseDir, "TheState", "", out.hasState);
      (map[NowTime := NowTimeOf(svc, now.text),
           LastOutput := Stamp(svc, out.text),
           State := Str(st.text)],
       st.hasState)
  }

  /** The start of the run (without --no-state, or for the estimate). */
  function StartPart(opts: Options, fs: FileSystem, svc: Services, caseDir: string, h: bool): (r: (Record, bool))
    ensures r.0.Keys == if opts.state || opts.estimateEndTime then {StartedAt} else {}
    ensures r.1 <==> h || ((opts.state || opts.estimateEndTime) && HasStateFile(fs, caseDir, "StartedAt"))
    ensures StartValues(opts, fs, svc, caseDir, r.0)
  {
    if opts.state || opts.estimateEndTime then
      var started := ReadState(fs, caseDir, "StartedAt", "", h);
      (map[StartedAt := Stamp(svc, started.text)], started.hasState)
    else (map[], h)
  }

  /** startTime and endTime of the controlDict, None when it cannot be
      read. */
  function BoundsPart(opts: Options, d: CaseData): (r: Record)
    ensures r.Keys == if opts.startEndTime || opts.estimateEndTime then {StartTime, EndTime} else {}
    ensures StartTime in r && d.controlDict.None? ==> r[StartTime] == Null && r[EndTime] == Null
    ensures BoundsValues(opts, d, r)
  {
    if opts.startEndTime || opts.estimateEndTime then
      match d.controlDict
      case Some((s, e)) => map[StartTime := s, EndTime := e]
      case None => map[StartTime := Null, EndTime := Null]
    else map[]
  }

  /** The extrapolated end time, only for a case whose state is
      "Running". */
  function EstimatePart(opts: Options, fs: FileSystem, caseDir: string, d: CaseData, h: bool): (r: (Record, bool))
    ensures r.0.Keys == if opts.estimateEndTime then {EndTimeEstimate} else {}
    ensures r.1 <==> h || (opts.estimateEndTime && HasStateFile(fs, caseDir, "TheState"))
    ensures opts.estimateEndTime && !HasStateFile(fs, caseDir, "TheState") ==> r.0[EndTimeEstimate] == Null
    ensures EstimateValues(opts, fs, caseDir, d, r.0)
  {
    if opts.estimateEndTime then
      var running := ReadState(fs, caseDir, "TheState", "", h);
      if running.text == "Running" then
        var current := ReadState(fs, caseDir, "CurrentTime", "", running.hasState);
        (map[EndTimeEstimate := d.estimate], current.hasState)
      else (map[EndTimeEstimate := Null], running.hasState)
    else (map[], h)
  }

  /** A field only the left map has keeps its value in the union. */
  lemma UnionLeft(a: Record, b: Record, f: Field)
    requires f in a && f !in b
    ensures f in a + b && (a + b)[f] == a[f]
  {
  }

  /** A field of the right map wins in the union. */
  lemma UnionRight(a: Record, b: Record, f: Field)
    requires f in b
    ensures f in a + b && (a + b)[f] == b[f]
  {
  }

  /** The four parts have disjoint fields, so their union keeps the values
      of each. */
  lemma JoinedValues(opts: Options, fs: FileSystem, svc: Services, caseDir: string, d: CaseData,
                     status: Record, start: Record, bounds: Record, estimate: Record)
    requires status.Keys == (if opts.state then {NowTime, LastOutput, State} else {})
    requires start.Keys == (if opts.state || opts.estimateEndTime then {StartedAt} else {})
    requires bounds.Keys == (if opts.startEndTime || opts.estimateEndTime then {StartTime, EndTime} else {})
    requires estimate.Keys == (if opts.estimateEndTime then {EndTimeEstimate} else {})
    requires StatusValues(opts, fs, svc, caseDir, status) && StartValues(opts, fs, svc, caseDir, start)
    requires BoundsValues(opts, d, bounds) && EstimateValues(opts, fs, caseDir, d, estimate)
    ensures StateValues(opts, fs, svc, caseDir, d, status + start + bounds + estimate)
  {
    var u1 := status + start;
    var u2 := u1 + bounds;
    if opts.state {
      ThroughLater(status, start, bounds, estimate, NowTime);
      ThroughLater(status, start, bounds, estimate, LastOutput);
      ThroughLater(status, start, bounds, estimate, State);
    }
    if opts.state || opts.estimateEndTime {
      UnionRight(status, start, StartedAt);
      UnionLeft(u1, bounds, StartedAt);
      UnionLeft(u2, estimate, StartedAt);
    }
    if opts.startEndTime || opts.estimateEndTime {
      UnionRight(u1, bounds, StartTime);
      UnionRight(u1, bounds, EndTime);
      UnionLeft(u2, estimate, StartTime);
      UnionLeft(u2, estimate, EndTime);
    }
    if opts.estimateEndTime {
      UnionRight(u2, estimate, EndTimeEstimate);
    }
  }

  /** The union of the four parts has exactly the state fields. */
  lemma JoinedKeys(opts: Options, status: Record, start: Record, bounds: Record, estimate: Record)
    requires status.Keys == (if opts.state then {NowTime, LastOutput, State} else {})
    requires start.Keys == (if opts.state || opts.estimateEndTime then {StartedAt} else {})
    requires bounds.Keys == (if opts.startEndTime || opts.estimateEndTime then {StartTime, EndTime} else {})
    requires estimate.Keys == (if opts.estimateEndTime then {EndTimeEstimate} else {})
    ensures (status + start + bounds + estimate).Keys == StateKeys(opts)
  {
  }

  /** A field of the first part that no later part has keeps its value. */
  lemma ThroughLater(status: Record, start: Record, bounds: Record, estimate: Record, f: Field)
    requires f in status && f !in start && f !in bounds && f !in estimate
    ensures f in status + start + bounds + estimate && (status + start + bounds + estimate)[f] == status[f]
  {
    UnionLeft(status, start, f);
    UnionLeft(status + start, bounds, f);
    UnionLeft(status + start + bounds, estimate, f);
  }

  /** The fields read from state files (--no-state turns most off) and the
      controlDict, with the updated "some case has state files" flag. */
  function StateFields(opts: Options, fs: FileSystem, svc: Services, caseDir: string, d: CaseData, hasState: bool): (r: (Record, bool))
    ensures r.0.Keys == StateKeys(opts)
    ensures r.1 <==> hasState || ReadsSomeState(opts, fs, caseDir)
    ensures StateValues(opts, fs, svc, caseDir, d, r.0)
  {
    var (status, h1) := StatusPart(opts, fs, svc, caseDir, hasState);
    var (start, h2) := StartPart(opts, fs, svc, caseDir, h1);
    var bounds := BoundsPart(opts, d);
    var (estimate, h3) := EstimatePart(opts, fs, caseDir, d, h2);
    JoinedValues(opts, fs, svc, caseDir, d, status, start, bounds, estimate);
    JoinedKeys(opts, status, start, bounds, estimate);
    (status + start + bounds + estimate, h3)
  }

  /** The custom-data fields of one case, read from the cache file chosen
      for it; none at all without custom data. */
  function CaseCustomFields(plan: Plan, fs: FileSystem, svc: Services, caseDir: string): (r: Result<Record, Failure>)
    ensures r.Ok? ==> r.value.Keys == CustomKeys(plan)
    ensures |plan.customs| == 0 ==> r == Ok(map[])
  {
    if |plan.customs| == 0 then Ok(map[])
    else CustomFields(SelectCache(fs, caseDir, plan.solverName), svc.load, plan.customs)
  }

  /** A name that has not the custom shape is no custom field of the
      schema. */
  lemma ForeignNotInSchema(plan: Plan, n: string)
    requires FreshNames(plan.customs) && !ShapedLikeCustom(n)
    ensures Custom(n) !in Schema(plan)
  {
    assert Custom(n) !in BaseKeys() + StateKeys(plan.opts);
  }

  /** The state and custom-data fields never overwrite a fixed field. */
  lemma BaseKeysApart(plan: Plan)
    ensures BaseKeys() !! StateKeys(plan.opts)
    ensures BaseKeys() !! CustomKeys(plan)
    ensures StateKeys(plan.opts) !! CustomKeys(plan)
  {
    BaseKeysInBlock();
    StateKeysInBlock(plan.opts);
    CustomKeysInBlock(plan);
  }

  /** The block of the record a field belongs to: 0 for the fields every
      record has, 1 for the state fields, 2 for the custom data. */
  function Block(f: Field): int {
    match f
    case NowTime | LastOutput | State | StartedAt | StartTime | EndTime | EndTimeEstimate => 1
    case Solver | Custom(_) => 2
    case _ => 0
  }

  lemma BaseKeysInBlock()
    ensures forall f :: f in BaseKeys() ==> Block(f) == 0
  {
  }

  lemma StateKeysInBlock(opts: Options)
    ensures forall f :: f in StateKeys(opts) ==> Block(f) == 1
  {
  }

  lemma CustomKeysInBlock(plan: Plan)
    ensures forall f :: f in CustomKeys(plan) ==> Block(f) == 2
  {
  }

  /** The record of one valid case and the updated state flag. Fails only
      when a custom-data key path indexes something that is not a
      dictionary. */
  function BuildRecord(plan: Plan, fs: FileSystem, svc: Services, name: string, d: CaseData, hasState: bool): (r: Result<(Record, bool), Failure>)
    ensures r.Ok? ==> r.value.0.Keys == Schema(plan)
    ensures r.Ok? ==> r.value.1 == (hasState || ReadsSomeState(plan.opts, fs, name))
    ensures r.Ok? ==> Agrees(r.value.0, BaseFields(plan.opts, fs, name, d))
    ensures r.Ok? ==> StateValues(plan.opts, fs, svc, name, d, r.value.0)
    ensures r.Ok? ==> CaseCustomFields(plan, fs, svc, name).Ok?
    ensures r.Ok? ==> Agrees(r.value.0, CaseCustomFields(plan, fs, svc, name).value)
    ensures |plan.customs| == 0 ==> r.Ok?
  {
    var base := BaseFields(plan.opts, fs, name, d);
    var (st, h) := StateFields(plan.opts, fs, svc, name, d, hasState);
    match CaseCustomFields(plan, fs, svc, name)
    case Err(e) => Err(e)
    case Ok(cf) =>
      BaseKeysApart(plan);
      ThreeParts(base, st, cf);
      StateValuesAgree(plan.opts, fs, svc, name, d, st, base + st + cf);
      Ok((base + st + cf, h))
  }

  /** rec holds every field of part with part's value. */
  ghost predicate Agrees(rec: Record, part: Record) {
    forall f :: f in part ==> f in rec && rec[f] == part[f]
  }

  /** The union of three parts with disjoint fields keeps every part's
      values. */
  lemma ThreeParts(base: Record, st: Record, cf: Record)
    requires base.Keys !! st.Keys && base.Keys !! cf.Keys && st.Keys !! cf.Keys
    ensures (base + st + cf).Keys == base.Keys + st.Keys + cf.Keys
    ensures Agrees(base + st + cf, base) && Agrees(base + st + cf, st) && Agrees(base + st + cf, cf)
  {
  }

  /** The state values carry over to a record that agrees with the state
      part on its fields. */
  lemma StateValuesAgree(opts: Options, fs: FileSystem, svc: Services, caseDir: string, d: CaseData, st: Record, rec: Record)
    requires StateValues(opts, fs, svc, caseDir, d, st)
    requires Agrees(rec, st)
    ensures StateValues(opts, fs, svc, caseDir, d, rec)
  {
  }

  // ---------------------------------------------------------------------
  // All cases

  /** The records, the running disk-usage total and the state flag. */
  datatype Totals = Totals(records: seq<Record>, totalDiskusage: int, hasState: bool)

  /** The byte count stored in a record's diskusage field. */
  function DiskOf(r: Record): int {
    if Diskusage in r && r[Diskusage].Int? then r[Diskusage].i else 0
  }

  function SumDisk(records: seq<Record>): int {
    if |records| == 0 then 0 else SumDisk(records[..|records| - 1]) + DiskOf(records[|records| - 1])
  }

  /** Every record carries the -1 marker of an unrequested size. */
  ghost predicate Unsized(records: seq<Record>) {
    forall k :: 0 <= k < |records| ==> Diskusage in records[k] && records[k][Diskusage] == Int(-1)
  }

  /** Every record has exactly the plan's fields. */
  ghost predicate Uniform(plan: Plan, records: seq<Record>) {
    forall k :: 0 <= k < |records| ==> records[k].Keys == Schema(plan)
  }

  /** What holds of the aggregate after every case: all records share the
      plan's schema, and the total is the sum of the records' disk usage
      (or stays 0, with every record marked -1, when it is not requested). */
  ghost predicate Consistent(plan: Plan, agg: Totals) {
    && Uniform(plan, agg.records)
    && (plan.opts.diskusage ==> agg.totalDiskusage == SumDisk(agg.records))
    && (!plan.opts.diskusage ==> agg.totalDiskusage == 0 && Unsized(agg.records))
  }

  /** What holds of the aggregate the program builds: as Consistent, except
      that with sizes requested the total exceeds the sum of the records'
      sizes by lost, the sizes of cases dropped after they were counted. */
  ghost predicate CountedWith(plan: Plan, agg: Totals, lost: int) {
    && Uniform(plan, agg.records)
    && (plan.opts.diskusage ==> agg.totalDiskusage == SumDisk(agg.records) + lost)
    && (!plan.opts.diskusage ==> agg.totalDiskusage == 0 && Unsized(agg.records))
  }

  /** The size counted for a directory that then fails late; 0 for any
      other. */
  function LateDisk(svc: Services, p: string): nat {
    if svc.inspect(p).FailsLate? then svc.inspect(p).late.diskUsage else 0
  }

  /** The sizes of all the cases among paths that fail late. */
  function LostDisk(svc: Services, paths: seq<string>): nat {
    if |paths| == 0 then 0 else LateDisk(svc, paths[0]) + LostDisk(svc, paths[1..])
  }

  /** The directories among paths that are valid cases, in order. */
  function ValidPaths(svc: Services, paths: seq<string>): seq<string> {
    if |paths| == 0 then []
    else (if svc.inspect(paths[0]).Valid? then [paths[0]] else []) + ValidPaths(svc, paths[1..])
  }

  /** Appends a record and adds its size to the total when sizes are
      requested. */
  function AddRecord(plan: Plan, agg: Totals, rec: Record, size: nat, h: bool): Totals {
    Totals(agg.records + [rec], agg.totalDiskusage + (if plan.opts.diskusage then size else 0), h)
  }

  lemma AddRecordConsistent(plan: Plan, agg: Totals, rec: Record, size: nat, h: bool)
    requires Consistent(plan, agg) && rec.Keys == Schema(plan)
    requires rec[Diskusage] == (if plan.opts.diskusage then Int(size) else Int(-1))
    ensures Consistent(plan, AddRecord(plan, agg, rec, size, h))
  {
    var recs := agg.records + [rec];
    assert recs[..|recs| - 1] == agg.records;
  }

  lemma AddRecordCounted(plan: Plan, agg: Totals, rec: Record, size: nat, h: bool, lost: int)
    requires CountedWith(plan, agg, lost) && rec.Keys == Schema(plan)
    requires rec[Diskusage] == (if plan.opts.diskusage then Int(size) else Int(-1))
    ensures CountedWith(plan, AddRecord(plan, agg, rec, size, h), lost)
  {
    var recs := agg.records + [rec];
    assert recs[..|recs| - 1] == agg.records;
  }

  /** One iteration of the scanning loop: an unreadable directory or one
      that is not a case is skipped, a valid case adds its record. */
  function Step(plan: Plan, fs: FileSystem, svc: Services, p: string, acc: Totals): (r: Result<Totals, Failure>)
    ensures !svc.inspect(p).Valid? ==> r == Ok(acc)
    ensures svc.inspect(p).Valid? && r.Ok? ==>
      && |r.value.records| == |acc.records| + 1
      && r.value.records[..|acc.records|] == acc.records
      && r.value.records[|acc.records|].Keys == Schema(plan)
      && r.value.records[|acc.records|][Name] == Str(p)
    ensures svc.inspect(p).Valid? && r.Ok? ==>
      (r.value.hasState <==> acc.hasState || ReadsSomeState(plan.opts, fs, p))
    ensures svc.inspect(p).Valid? && r.Ok? ==>
      && BuildRecord(plan, fs, svc, p, svc.inspect(p).data, acc.hasState).Ok?
      && r.value.records[|acc.records|] == BuildRecord(plan, fs, svc, p, svc.inspect(p).data, acc.hasState).value.0
    ensures |plan.customs| == 0 ==> r.Ok?
  {
    match svc.inspect(p)
    case Valid(d) =>
      (match BuildRecord(plan, fs, svc, p, d, acc.hasState)
       case Err(e) => Err(e)
       case Ok((rec, h)) =>
         assert rec[Name] == BaseFields(plan.opts, fs, p, d)[Name];
         var next := AddRecord(plan, acc, rec, d.diskUsage, h);
         assert next.records[..|acc.records|] == acc.records;
         Ok(next))
    case _ => Ok(acc)
  }

  /** The loop body as the program has it: a case that fails late has
      already added its disk usage to the total when the OSError drops its
      record. Every other probe is handled as by Step. */
  function StepAsWritten(plan: Plan, fs: FileSystem, svc: Services, p: string, acc: Totals): (r: Result<Totals, Failure>)
    ensures !svc.inspect(p).FailsLate? ==> r == Step(plan, fs, svc, p, acc)
    ensures svc.inspect(p).FailsLate? ==> r.Ok? && r.value.records == acc.records && r.value.hasState == acc.hasState
  {
    match svc.inspect(p)
    case FailsLate(d) =>
      Ok(acc.(totalDiskusage := acc.totalDiskusage + (if plan.opts.diskusage then d.diskUsage else 0)))
    case _ => Step(plan, fs, svc, p, acc)
  }

  /** With sizes requested, a case that fails late and has a positive size
      leaves the program's total above the sum of the listed sizes. */
  lemma AsWrittenCountsDroppedCase(plan: Plan, fs: FileSystem, svc: Services, p: string, acc: Totals)
    requires plan.opts.diskusage && Consistent(plan, acc)
    requires svc.inspect(p).FailsLate? && svc.inspect(p).late.diskUsage > 0
    ensures StepAsWritten(plan, fs, svc, p, acc).Ok?
    ensures StepAsWritten(plan, fs, svc, p, acc).value.totalDiskusage > SumDisk(StepAsWritten(plan, fs, svc, p, acc).value.records)
    ensures !Consistent(plan, StepAsWritten(plan, fs, svc, p, acc).value)
  {
  }

  /** The corrected loop body drops a case that fails late without a trace. */
  lemma StepDropsLateFailure(plan: Plan, fs: FileSystem, svc: Services, p: string, acc: Totals)
    requires svc.inspect(p).FailsLate?
    ensures Step(plan, fs, svc, p, acc) == Ok(acc)
    ensures Consistent(plan, acc) ==> Consistent(plan, Step(plan, fs, svc, p, acc).value)
  {
  }

  /** One iteration as written keeps the program's invariant, with the
      size of a case that fails late added to what is lost. */
  lemma StepAsWrittenCounted(plan: Plan, fs: FileSystem, svc: Services, p: string, acc: Totals, lost: int)
    requires CountedWith(plan, acc, lost)
    requires StepAsWritten(plan, fs, svc, p, acc).Ok?
    ensures CountedWith(plan, StepAsWritten(plan, fs, svc, p, acc).value, lost + LateDisk(svc, p))
  {
    if svc.inspect(p).Valid? {
      var d := svc.inspect(p).data;
      var (rec, h) := BuildRecord(plan, fs, svc, p, d, acc.hasState).value;
      assert rec[Diskusage] == BaseFields(plan.opts, fs, p, d)[Diskusage];
      AddRecordCounted(plan, acc, rec, d.diskUsage, h, lost);
    }
  }

  /** One case keeps the invariant. */
  lemma StepConsistent(plan: Plan, fs: FileSystem, svc: Services, p: string, acc: Totals)
    requires Consistent(plan, acc)
    requires Step(plan, fs, svc, p, acc).Ok?
    ensures Consistent(plan, Step(plan, fs, svc, p, acc).value)
  {
    if svc.inspect(p).Valid? {
      var d := svc.inspect(p).data;
      var (rec, h) := BuildRecord(plan, fs, svc, p, d, acc.hasState).value;
      assert rec[Diskusage] == BaseFields(plan.opts, fs, p, d)[Diskusage];
      AddRecordConsistent(plan, acc, rec, d.diskUsage, h);
    }
  }

  /** What one iteration does to the records: a valid case appends one
      record named after it, anything else leaves them alone. */
  ghost predicate StepShape(svc: Services, p: string, acc: Totals, next: Totals) {
    if svc.inspect(p).Valid? then
      && |next.records| == |acc.records| + 1
      && next.records[..|acc.records|] == acc.records
      && Name in next.records[|acc.records|]
      && next.records[|acc.records|][Name] == Str(p)
    else next.records == acc.records
  }

  /** Every successful iteration of the loop body has that shape. */
  ghost predicate Appends(svc: Services, step: (string, Totals) -> Result<Totals, Failure>) {
    forall p: string, acc: Totals :: step(p, acc).Ok? ==> StepShape(svc, p, acc, step(p, acc).value)
  }

  /** Every iteration of the loop body keeps the invariant. */
  ghost predicate Keeps(plan: Plan, step: (string, Totals) -> Result<Totals, Failure>) {
    forall p: string, acc: Totals :: Consistent(plan, acc) && step(p, acc).Ok? ==> Consistent(plan, step(p, acc).value)
  }

  /** Every successful iteration of the loop body sets the state flag
      exactly when the case is valid and some state file it reads exists. */
  ghost predicate Flags(plan: Plan, fs: FileSystem, svc: Services, step: (string, Totals) -> Result<Totals, Failure>) {
    forall p: string, acc: Totals :: step(p, acc).Ok? ==>
      (step(p, acc).value.hasState <==> acc.hasState || (svc.inspect(p).Valid? && ReadsSomeState(plan.opts, fs, p)))
  }

  /** Some valid case among paths has a state file the options make the
      builder read. */
  ghost predicate SomeCaseHasState(plan: Plan, fs: FileSystem, svc: Services, paths: seq<string>) {
    exists k :: 0 <= k < |paths| && svc.inspect(paths[k]).Valid? && ReadsSomeState(plan.opts, fs, paths[k])
  }

  /** The scanning loop from the given aggregate on, with the loop body as
      a parameter; the first failing case aborts the run. */
  function Scan(step: (string, Totals) -> Result<Totals, Failure>, paths: seq<string>, acc: Totals): (r: Result<Totals, Failure>)
    ensures (forall p: string, t: Totals :: step(p, t).Ok?) ==> r.Ok?
    decreases |paths|
  {
    if |paths| == 0 then Ok(acc)
    else
      match step(paths[0], acc)
      case Err(e) => Err(e)
      case Ok(next) => Scan(step, paths[1..], next)
  }

  /** The invariant holds after every case. */
  lemma {:induction false} ScanConsistent(plan: Plan, step: (string, Totals) -> Result<Totals, Failure>, paths: seq<string>, acc: Totals)
    requires Keeps(plan, step) && Consistent(plan, acc)
    requires Scan(step, paths, acc).Ok?
    ensures Consistent(plan, Scan(step, paths, acc).value)
    decreases |paths|
  {
    if |paths| > 0 {
      ScanConsistent(plan, step, paths[1..], step(paths[0], acc).value);
    }
  }

  /** Every iteration of the loop body keeps the program's invariant, adding
      the size of a case that fails late to what is lost. */
  ghost predicate KeepsCounted(plan: Plan, svc: Services, step: (string, Totals) -> Result<Totals, Failure>) {
    forall p: string, acc: Totals, lost: int :: CountedWith(plan, acc, lost) && step(p, acc).Ok? ==>
      CountedWith(plan, step(p, acc).value, lost + LateDisk(svc, p))
  }

  /** After the scan, what is lost has grown by the sizes of all the cases
      that fail late. */
  lemma {:induction false} ScanCounted(plan: Plan, svc: Services, step: (string, Totals) -> Result<Totals, Failure>,
                                       paths: seq<string>, acc: Totals, lost: int)
    requires KeepsCounted(plan, svc, step) && CountedWith(plan, acc, lost)
    requires Scan(step, paths, acc).Ok?
    ensures CountedWith(plan, Scan(step, paths, acc).value, lost + LostDisk(svc, paths))
    decreases |paths|
  {
    if |paths| > 0 {
      var next := step(paths[0], acc).value;
      assert CountedWith(plan, next, lost + LateDisk(svc, paths[0]));
      ScanCounted(plan, svc, step, paths[1..], next, lost + LateDisk(svc, paths[0]));
    }
  }

  /** Two loop bodies that agree on every path give the same scan. */
  lemma {:induction false} ScanSameSteps(step: (string, Totals) -> Result<Totals, Failure>,
                                         other: (string, Totals) -> Result<Totals, Failure>,
                                         paths: seq<string>, acc: Totals)
    requires forall p: string, t: Totals :: p in paths ==> step(p, t) == other(p, t)
    ensures Scan(step, paths, acc) == Scan(other, paths, acc)
    decreases |paths|
  {
    if |paths| > 0 {
      assert step(paths[0], acc) == other(paths[0], acc);
      assert forall p :: p in paths[1..] ==> p in paths;
      if step(paths[0], acc).Ok? {
        ScanSameSteps(step, other, paths[1..], step(paths[0], acc).value);
      }
    }
  }

  /** After the scan the state flag is set exactly when it was set before
      or some valid case has a state file that was read. */
  lemma {:induction false} ScanFlags(plan: Plan, fs: FileSystem, svc: Services,
                                     step: (string, Totals) -> Result<Totals, Failure>, paths: seq<string>, acc: Totals)
    requires Flags(plan, fs, svc, step)
    requires Scan(step, paths, acc).Ok?
    ensures Scan(step, paths, acc).value.hasState <==> acc.hasState || SomeCaseHasState(plan, fs, svc, paths)
    decreases |paths|
  {
    if |paths| > 0 {
      var next := step(paths[0], acc).value;
      ScanFlags(plan, fs, svc, step, paths[1..], next);
      SomeCaseHasStateCons(plan, fs, svc, paths);
    }
  }

  /** Some valid case has state exactly when the first one does or one of
      the rest. */
  lemma SomeCaseHasStateCons(plan: Plan, fs: FileSystem, svc: Services, paths: seq<string>)
    requires |paths| > 0
    ensures SomeCaseHasState(plan, fs, svc, paths) <==>
      (svc.inspect(paths[0]).Valid? && ReadsSomeState(plan.opts, fs, paths[0]))
      || SomeCaseHasState(plan, fs, svc, paths[1..])
  {
    if SomeCaseHasState(plan, fs, svc, paths[1..]) {
      var k :| 0 <= k < |paths[1..]| && svc.inspect(paths[1..][k]).Valid? && ReadsSomeState(plan.opts, fs, paths[1..][k]);
      assert paths[k + 1] == paths[1..][k];
    }
    if SomeCaseHasState(plan, fs, svc, paths) {
      var k :| 0 <= k < |paths| && svc.inspect(paths[k]).Valid? && ReadsSomeState(plan.opts, fs, paths[k]);
      if k > 0 {
        assert paths[1..][k - 1] == paths[k];
      }
    }
  }

  /** From position offset on, the records are named after names. */
  ghost predicate NamedAfter(records: seq<Record>, offset: nat, names: seq<string>) {
    offset + |names| == |records|
    && forall k :: 0 <= k < |names| ==> NamedAt(records, offset + k, names[k])
  }

  /** Record i has the name n. */
  ghost predicate NamedAt(records: seq<Record>, i: int, n: string) {
    0 <= i < |records| && Name in records[i] && records[i][Name] == Str(n)
  }

  /** The scan keeps the records it started with and adds one per valid
      case, named after it, in scanning order. */
  lemma {:induction false} ScanNames(svc: Services, step: (string, Totals) -> Result<Totals, Failure>, paths: seq<string>, acc: Totals)
    requires Appends(svc, step)
    requires Scan(step, paths, acc).Ok?
    ensures |acc.records| <= |Scan(step, paths, acc).value.records|
    ensures Scan(step, paths, acc).value.records[..|acc.records|] == acc.records
    ensures NamedAfter(Scan(step, paths, acc).value.records, |acc.records|, ValidPaths(svc, paths))
    decreases |paths|
  {
    if |paths| > 0 {
      var p := paths[0];
      var rest := paths[1..];
      var next := step(p, acc).value;
      assert StepShape(svc, p, acc, next);
      ScanNames(svc, step, rest, next);
      var rs := Scan(step, paths, acc).value.records;
      assert rs == Scan(step, rest, next).value.records;
      var names := ValidPaths(svc, paths);
      var later := ValidPaths(svc, rest);
      if svc.inspect(p).Valid? {
        assert names == [p] + later;
        NamedAfterCons(rs, acc.records, next.records, p, later);
        PrefixOfPrefix(rs, next.records, acc.records);
      } else {
        assert names == later;
      }
    }
  }

  /** Record rec is the one built for the valid case q: its base, state
      and custom fields hold what that case, its files and its custom data
      say. */
  ghost predicate Describes(plan: Plan, fs: FileSystem, svc: Services, rec: Record, q: string) {
    && svc.inspect(q).Valid?
    && Agrees(rec, BaseFields(plan.opts, fs, q, svc.inspect(q).data))
    && StateValues(plan.opts, fs, svc, q, svc.inspect(q).data, rec)
    && CaseCustomFields(plan, fs, svc, q).Ok?
    && Agrees(rec, CaseCustomFields(plan, fs, svc, q).value)
  }

  /** Describes as a value, for the scan lemma below. */
  ghost function DescribesOf(plan: Plan, fs: FileSystem, svc: Services): (Record, string) -> bool {
    (rec, q) => Describes(plan, fs, svc, rec, q)
  }

  /** From offset on, record k is the one built for the k-th of names. */
  ghost predicate BuiltAfter(plan: Plan, fs: FileSystem, svc: Services, records: seq<Record>, offset: nat, names: seq<string>) {
    FitAfter(DescribesOf(plan, fs, svc), records, offset, names)
  }

  /** Every successful iteration on a valid case appends the record built
      for it. */
  ghost predicate Builds(plan: Plan, fs: FileSystem, svc: Services, step: (string, Totals) -> Result<Totals, Failure>) {
    AppendsFitting(svc, DescribesOf(plan, fs, svc), step)
  }

  /** From offset on, record k fits the k-th of names. */
  ghost predicate FitAfter(fits: (Record, string) -> bool, records: seq<Record>, offset: nat, names: seq<string>) {
    offset + |names| == |records|
    && forall k :: 0 <= k < |names| ==> fits(records[offset + k], names[k])
  }

  /** Every successful iteration on a valid case appends a record that
      fits it. */
  ghost predicate AppendsFitting(svc: Services, fits: (Record, string) -> bool, step: (string, Totals) -> Result<Totals, Failure>) {
    forall p: string, acc: Totals ::
      step(p, acc).Ok? && svc.inspect(p).Valid? && |acc.records| < |step(p, acc).value.records| ==>
        fits(step(p, acc).value.records[|acc.records|], p)
  }

  /** The scan appends, one per valid case and in scanning order, a record
      that fits that case. */
  lemma {:induction false} ScanFits(svc: Services, fits: (Record, string) -> bool, step: (string, Totals) -> Result<Totals, Failure>,
                                    paths: seq<string>, acc: Totals)
    requires Appends(svc, step) && AppendsFitting(svc, fits, step)
    requires Scan(step, paths, acc).Ok?
    ensures FitAfter(fits, Scan(step, paths, acc).value.records, |acc.records|, ValidPaths(svc, paths))
    decreases |paths|
  {
    ScanNames(svc, step, paths, acc);
    if |paths| > 0 {
      var p := paths[0];
      var rest := paths[1..];
      var next := step(p, acc).value;
      assert StepShape(svc, p, acc, next);
      ScanFits(svc, fits, step, rest, next);
      ScanNames(svc, step, rest, next);
      var rs := Scan(step, paths, acc).value.records;
      assert rs == Scan(step, rest, next).value.records;
      var names := ValidPaths(svc, paths);
      var later := ValidPaths(svc, rest);
      if svc.inspect(p).Valid? {
        assert names == [p] + later;
        assert rs[|acc.records|] == rs[..|next.records|][|acc.records|];
        assert fits(next.records[|acc.records|], p);
        forall k | 0 <= k < |names|
          ensures fits(rs[|acc.records| + k], names[k])
        {
          if k > 0 {
            assert names[k] == later[k - 1];
            assert rs[|acc.records| + k] == rs[|next.records| + (k - 1)];
          }
        }
      } else {
        assert names == later;
      }
    }
  }

  /** A record named p in front of records named after later. */
  lemma NamedAfterCons(rs: seq<Record>, before: seq<Record>, next: seq<Record>, p: string, later: seq<string>)
    requires |next| == |before| + 1 && Name in next[|before|] && next[|before|][Name] == Str(p)
    requires |next| <= |rs| && rs[..|next|] == next
    requires NamedAfter(rs, |next|, later)
    ensures NamedAfter(rs, |before|, [p] + later)
  {
    var names := [p] + later;
    forall k | 0 <= k < |names|
      ensures NamedAt(rs, |before| + k, names[k])
    {
      if k == 0 {
        assert names[k] == p;
        assert rs[|before| + k] == rs[..|next|][|before|];
      } else {
        var j := k - 1;
        assert names[k] == later[j];
        assert |before| + k == |next| + j;
        assert NamedAt(rs, |next| + j, later[j]);
      }
    }
  }

  lemma PrefixOfPrefix(rs: seq<Record>, next: seq<Record>, before: seq<Record>)
    requires |before| <= |next| <= |rs| && rs[..|next|] == next && next[..|before|] == before
    ensures rs[..|before|] == before
  {
    assert rs[..|before|] == rs[..|next|][..|before|];
  }

  /** Step has the shape the scan lemmas need. */
  lemma StepFits(plan: Plan, fs: FileSystem, svc: Services)
    ensures Appends(svc, (p, acc) => Step(plan, fs, svc, p, acc))
    ensures Keeps(plan, (p, acc) => Step(plan, fs, svc, p, acc))
    ensures Flags(plan, fs, svc, (p, acc) => Step(plan, fs, svc, p, acc))
    ensures Builds(plan, fs, svc, (p, acc) => Step(plan, fs, svc, p, acc))
  {
    forall p: string, acc: Totals | Consistent(plan, acc) && Step(plan, fs, svc, p, acc).Ok?
      ensures Consistent(plan, Step(plan, fs, svc, p, acc).value)
    {
      StepConsistent(plan, fs, svc, p, acc);
    }
  }

  /** StepAsWritten has the shape the scan lemmas need. */
  lemma StepAsWrittenFits(plan: Plan, fs: FileSystem, svc: Services)
    ensures Appends(svc, (p, acc) => StepAsWritten(plan, fs, svc, p, acc))
    ensures KeepsCounted(plan, svc, (p, acc) => StepAsWritten(plan, fs, svc, p, acc))
    ensures Flags(plan, fs, svc, (p, acc) => StepAsWritten(plan, fs, svc, p, acc))
    ensures Builds(plan, fs, svc, (p, acc) => StepAsWritten(plan, fs, svc, p, acc))
  {
    StepFits(plan, fs, svc);
    forall p: string, acc: Totals, lost: int | CountedWith(plan, acc, lost) && StepAsWritten(plan, fs, svc, p, acc).Ok?
      ensures CountedWith(plan, StepAsWritten(plan, fs, svc, p, acc).value, lost + LateDisk(svc, p))
    {
      StepAsWrittenCounted(plan, fs, svc, p, acc, lost);
    }
  }

  /** The directories the source scans: every entry of every root that is
      a directory, in listing order. */
  function CaseDirs(fs: FileSystem, roots: seq<string>): seq<string> {
    if |roots| == 0 then []
    else
      var d := roots[0];
      DirsIn(fs, d, fs.listdir(d)) + CaseDirs(fs, roots[1..])
  }

  function DirsIn(fs: FileSystem, root: string, names: seq<string>): seq<string> {
    if |names| == 0 then []
    else
      var p := PathJoin(root, names[0]);
      (if fs.isDir(p) then [p] else []) + DirsIn(fs, root, names[1..])
  }

  /** The whole scan as the program runs it: one record per valid case in
      scanning order, every record with the same fields, and, when sizes are
      requested, a total that is the sum of the records' sizes plus the
      sizes of the cases that failed after being counted (0 with every size
      -1 otherwise). */
  function Aggregate(plan: Plan, fs: FileSystem, svc: Services, paths: seq<string>): (r: Result<Totals, Failure>)
    ensures r.Ok? ==> Uniform(plan, r.value.records)
    ensures r.Ok? ==> NamedAfter(r.value.records, 0, ValidPaths(svc, paths))
    ensures r.Ok? ==> BuiltAfter(plan, fs, svc, r.value.records, 0, ValidPaths(svc, paths))
    ensures r.Ok? && plan.opts.diskusage ==> r.value.totalDiskusage == SumDisk(r.value.records) + LostDisk(svc, paths)
    ensures r.Ok? && plan.opts.diskusage ==> r.value.totalDiskusage >= SumDisk(r.value.records)
    ensures r.Ok? && !plan.opts.diskusage ==> r.value.totalDiskusage == 0 && Unsized(r.value.records)
    ensures r.Ok? ==> (r.value.hasState <==> SomeCaseHasState(plan, fs, svc, paths))
    ensures |plan.customs| == 0 ==> r.Ok?
  {
    var start := Totals([], 0, false);
    var step := (p, acc) => StepAsWritten(plan, fs, svc, p, acc);
    var r := Scan(step, paths, start);
    if r.Ok? then
      StepAsWrittenFits(plan, fs, svc);
      ScanCounted(plan, svc, step, paths, start, 0);
      ScanNames(svc, step, paths, start);
      ScanFits(svc, DescribesOf(plan, fs, svc), step, paths, start);
      ScanFlags(plan, fs, svc, step, paths, start);
      r
    else r
  }

  /** The whole scan with the corrected loop body: the same records, and
      the total is exactly the sum of the records' sizes when it is
      requested. */
  function AggregateCorrected(plan: Plan, fs: FileSystem, svc: Services, paths: seq<string>): (r: Result<Totals, Failure>)
    ensures r.Ok? ==> Uniform(plan, r.value.records)
    ensures r.Ok? ==> NamedAfter(r.value.records, 0, ValidPaths(svc, paths))
    ensures r.Ok? ==> BuiltAfter(plan, fs, svc, r.value.records, 0, ValidPaths(svc, paths))
    ensures r.Ok? && plan.opts.diskusage ==> r.value.totalDiskusage == SumDisk(r.value.records)
    ensures r.Ok? && !plan.opts.diskusage ==> r.value.totalDiskusage == 0 && Unsized(r.value.records)
    ensures r.Ok? ==> (r.value.hasState <==> SomeCaseHasState(plan, fs, svc, paths))
    ensures |plan.customs| == 0 ==> r.Ok?
  {
    var start := Totals([], 0, false);
    var step := (p, acc) => Step(plan, fs, svc, p, acc);
    var r := Scan(step, paths, start);
    if r.Ok? then
      StepFits(plan, fs, svc);
      ScanConsistent(plan, step, paths, start);
      ScanNames(svc, step, paths, start);
      ScanFits(svc, DescribesOf(plan, fs, svc), step, paths, start);
      ScanFlags(plan, fs, svc, step, paths, start);
      r
    else r
  }

  /** Record k of the program's scan is the one built for the k-th valid
      case: its name, base, state and custom fields are that case's. */
  lemma AggregateRecord(plan: Plan, fs: FileSystem, svc: Services, paths: seq<string>, k: int)
    requires Aggregate(plan, fs, svc, paths).Ok?
    requires 0 <= k < |ValidPaths(svc, paths)|
    ensures var rs := Aggregate(plan, fs, svc, paths).value.records;
      var q := ValidPaths(svc, paths)[k];
      && k < |rs|
      && rs[k][Name] == Str(q)
      && Describes(plan, fs, svc, rs[k], q)
  {
  }

  /** When no case fails after its size was counted, the program's scan and
      the corrected one agree. */
  lemma AggregatesAgree(plan: Plan, fs: FileSystem, svc: Services, paths: seq<string>)
    requires forall k :: 0 <= k < |paths| ==> !svc.inspect(paths[k]).FailsLate?
    ensures Aggregate(plan, fs, svc, paths) == AggregateCorrected(plan, fs, svc, paths)
  {
    var step := (p, acc) => StepAsWritten(plan, fs, svc, p, acc);
    var other := (p, acc) => Step(plan, fs, svc, p, acc);
    forall p: string, t: Totals | p in paths
      ensures step(p, t) == other(p, t)
    {
      var k :| 0 <= k < |paths| && paths[k] == p;
    }
    ScanSameSteps(step, other, paths, Totals([], 0, false));
  }
}

=== FILE: results.dfy ===
/** Optional values and fallible results, shared by every module of the model. */
module Results {

  /** A value that may be absent. */
  datatype Option<+T> = None | Some(value: T)

  /** The outcome of an operation that may fail with an error of type E. */
  datatype Result<+T, +E> = Ok(value: T) | Err(error: E)
}

=== FILE: sorting.dfy ===
/**
 Sorting the records by one field (cData.sort with key and reverse): a
 stable sort under Python 2's order on values, where reverse=True puts
 larger keys first but keeps records with equal keys in their original
 order.
 */
module Sorting {
  import opened Results
  import opened Values
  import opened Fields
  import opened Failures

  /** Every record carries field f. */
  predicate AllHave(rs: seq<Record>, f: Field) {
    forall k :: 0 <= k < |rs| ==> f in rs[k]
  }

  /** a belongs strictly before b: a smaller key ascending, a larger key
      descending. */
  predicate Before(a: Record, b: Record, f: Field, desc: bool)
    requires f in a && f in b
  {
    if desc then Less(b[f], a[f]) else Less(a[f], b[f])
  }

  /** The record's key is equivalent to v. */
  predicate KeyLike(r: Record, f: Field, v: Value)
    requires f in r
  {
    Equiv(r[f], v)
  }

  lemma BeforeIrreflexive(a: Record, f: Field, desc: bool)
    requires f in a
    ensures !Before(a, a, f, desc)
  {
    LessIrreflexive(a[f]);
  }

  lemma BeforeAsymmetric(a: Record, b: Record, f: Field, desc: bool)
    requires f in a && f in b && Before(a, b, f, desc)
    ensures !Before(b, a, f, desc)
  {
    if Before(b, a, f, desc) {
      if desc {
        LessTransitive(b[f], a[f], b[f]);
      } else {
        LessTransitive(a[f], b[f], a[f]);
      }
      LessIrreflexive(a[f]);
      LessIrreflexive(b[f]);
    }
  }

  lemma BeforeSplits(a: Record, b: Record, c: Record, f: Field, desc: bool)
    requires f in a && f in b && f in c && Before(a, c, f, desc)
    ensures Before(a, b, f, desc) || Before(b, c, f, desc)
  {
    if desc {
      LessSplits(c[f], b[f], a[f]);
    } else {
      LessSplits(a[f], b[f], c[f]);
    }
  }

  /** Not belonging before is transitive. */
  lemma NotBeforeChain(a: Record, b: Record, c: Record, f: Field, desc: bool)
    requires f in a && f in b && f in c
    requires !Before(a, b, f, desc) && !Before(b, c, f, desc)
    ensures !Before(a, c, f, desc)
  {
    if Before(a, c, f, desc) {
      BeforeSplits(a, b, c, f, desc);
    }
  }

  /** A record strictly before one whose key is like v is not like v. */
  lemma BeforeNotLike(a: Record, b: Record, f: Field, desc: bool, v: Value)
    requires f in a && f in b && Before(a, b, f, desc) && KeyLike(b, f, v)
    ensures !KeyLike(a, f, v)
  {
    if desc {
      LessSplits(b[f], v, a[f]);
    } else {
      LessSplits(a[f], v, b[f]);
    }
  }

  // ---------------------------------------------------------------------
  // Insertion sort

  /** Inserts x in front of the first record it does not belong after. */
  function Insert(x: Record, s: seq<Record>, f: Field, desc: bool): (r: seq<Record>)
    requires f in x && AllHave(s, f)
    ensures AllHave(r, f)
    ensures multiset(r) == multiset(s) + multiset{x}
  {
    if |s| == 0 || !Before(s[0], x, f, desc) then [x] + s
    else
      assert s == [s[0]] + s[1..];
      [s[0]] + Insert(x, s[1..], f, desc)
  }

  function InsertionSort(rs: seq<Record>, f: Field, desc: bool): (r: seq<Record>)
    requires AllHave(rs, f)
    ensures AllHave(r, f)
    ensures multiset(r) == multiset(rs)
  {
    if |rs| == 0 then []
    else
      assert rs == [rs[0]] + rs[1..];
      Insert(rs[0], InsertionSort(rs[1..], f, desc), f, desc)
  }

  /** No record belongs before one that precedes it. */
  ghost predicate Sorted(rs: seq<Record>, f: Field, desc: bool)
    requires AllHave(rs, f)
  {
    forall i, j :: 0 <= i < j < |rs| ==> !Before(rs[j], rs[i], f, desc)
  }

  /** x in front of a sorted sequence whose head does not belong before
      it stays sorted. */
  lemma InsertFrontSorted(x: Record, s: seq<Record>, f: Field, desc: bool)
    requires f in x && AllHave(s, f) && Sorted(s, f, desc)
    requires |s| == 0 || !Before(s[0], x, f, desc)
    ensures AllHave([x] + s, f) && Sorted([x] + s, f, desc)
  {
    var r := [x] + s;
    forall i, j | 0 <= i < j < |r|
      ensures !Before(r[j], r[i], f, desc)
    {
      assert r[j] == s[j - 1];
      if i == 0 {
        if j - 1 == 0 {
          BeforeIrreflexive(s[0], f, desc);
        }
        NotBeforeChain(s[j - 1], s[0], x, f, desc);
      } else {
        assert r[i] == s[i - 1];
      }
    }
  }

  /** A head that belongs before x stays in front of the sorted rest with x
      inserted. */
  lemma KeepHeadSorted(x: Record, s: seq<Record>, t: seq<Record>, f: Field, desc: bool)
    requires f in x && AllHave(s, f) && Sorted(s, f, desc)
    requires |s| > 0 && Before(s[0], x, f, desc)
    requires AllHave(t, f) && Sorted(t, f, desc) && multiset(t) == multiset(s[1..]) + multiset{x}
    ensures AllHave([s[0]] + t, f) && Sorted([s[0]] + t, f, desc)
  {
    var r := [s[0]] + t;
    forall i, j | 0 <= i < j < |r|
      ensures !Before(r[j], r[i], f, desc)
    {
      var e := r[j];
      assert e == t[j - 1];
      if i == 0 {
        assert e in multiset(t);
        if e == x {
          BeforeAsymmetric(s[0], x, f, desc);
        } else {
          assert e in multiset(s[1..]);
          var k :| 0 <= k < |s[1..]| && s[1..][k] == e;
          assert s[k + 1] == e;
        }
      } else {
        assert r[i] == t[i - 1];
      }
    }
  }

  lemma {:induction false} InsertSorted(x: Record, s: seq<Record>, f: Field, desc: bool)
    requires f in x && AllHave(s, f) && Sorted(s, f, desc)
    ensures Sorted(Insert(x, s, f, desc), f, desc)
    decreases |s|
  {
    if |s| == 0 || !Before(s[0], x, f, desc) {
      InsertFrontSorted(x, s, f, desc);
    } else {
      assert forall i, j :: 0 <= i < j < |s[1..]| ==> s[1..][i] == s[i + 1] && s[1..][j] == s[j + 1];
      InsertSorted(x, s[1..], f, desc);
      KeepHeadSorted(x, s, Insert(x, s[1..], f, desc), f, desc);
    }
  }

  lemma {:induction false} InsertionSortSorted(rs: seq<Record>, f: Field, desc: bool)
    requires AllHave(rs, f)
    ensures Sorted(InsertionSort(rs, f, desc), f, desc)
    decreases |rs|
  {
    if |rs| > 0 {
      InsertionSortSorted(rs[1..], f, desc);
      InsertSorted(rs[0], InsertionSort(rs[1..], f, desc), f, desc);
    }
  }

  // ---------------------------------------------------------------------
  // Stability

  /** The records whose key is equivalent to v, in order. */
  function Like(rs: seq<Record>, f: Field, v: Value): (r: seq<Record>)
    requires AllHave(rs, f)
    ensures |r| <= |rs|
  {
    if |rs| == 0 then []
    else (if KeyLike(rs[0], f, v) then [rs[0]] else []) + Like(rs[1..], f, v)
  }

  lemma LikeCons(e: Record, t: seq<Record>, f: Field, v: Value)
    requires f in e && AllHave(t, f)
    ensures AllHave([e] + t, f)
    ensures Like([e] + t, f, v) == (if KeyLike(e, f, v) then [e] else []) + Like(t, f, v)
  {
    assert ([e] + t)[1..] == t;
  }

  lemma {:induction false} LikeInsert(x: Record, s: seq<Record>, f: Field, desc: bool, v: Value)
    requires f in x && AllHave(s, f)
    ensures Like(Insert(x, s, f, desc), f, v) == (if KeyLike(x, f, v) then [x] else []) + Like(s, f, v)
    decreases |s|
  {
    if |s| == 0 || !Before(s[0], x, f, desc) {
      LikeCons(x, s, f, v);
    } else {
      var t := Insert(x, s[1..], f, desc);
      var hx := if KeyLike(x, f, v) then [x] else [];
      var h := if KeyLike(s[0], f, v) then [s[0]] else [];
      assert Insert(x, s, f, desc) == [s[0]] + t;
      LikeInsert(x, s[1..], f, desc, v);
      LikeCons(s[0], t, f, v);
      if KeyLike(x, f, v) {
        BeforeNotLike(s[0], x, f, desc, v);
      }
      ShiftPast(Like([s[0]] + t, f, v), Like(s, f, v), Like(t, f, v), Like(s[1..], f, v), h, hx);
    }
  }

  /** When at most one of h and hx is non-empty, h then hx then rest is hx
      then h then rest. */
  lemma ShiftPast(whole: seq<Record>, original: seq<Record>, tail: seq<Record>, rest: seq<Record>, h: seq<Record>, hx: seq<Record>)
    requires whole == h + tail && tail == hx + rest && original == h + rest
    requires |h| == 0 || |hx| == 0
    ensures whole == hx + original
  {
    if |h| == 0 {
      assert whole == tail;
      assert original == rest;
    } else {
      assert hx + original == original;
      assert tail == rest;
    }
  }

  /** Records with equivalent keys keep their relative order. */
  lemma {:induction false} InsertionSortStable(rs: seq<Record>, f: Field, desc: bool, v: Value)
    requires AllHave(rs, f)
    ensures Like(InsertionSort(rs, f, desc), f, v) == Like(rs, f, v)
    decreases |rs|
  {
    if |rs| > 0 {
      InsertionSortStable(rs[1..], f, desc, v);
      LikeInsert(rs[0], InsertionSort(rs[1..], f, desc), f, desc, v);
    }
  }

  // ---------------------------------------------------------------------
  // The sort of the listing

  /** Sorting by the field a --sort-by key names; a record without that
      field raises KeyError, which an empty listing never does. */
  function SortBy(rs: seq<Record>, key: string, desc: bool): (r: Result<seq<Record>, Failure>)
    ensures r.Ok? <==> AllHave(rs, Parse(key))
    ensures r.Err? ==> r.error == MissingSortKey(key)
    ensures r.Ok? ==> multiset(r.value) == multiset(rs) && AllHave(r.value, Parse(key))
    ensures r.Ok? ==> Sorted(r.value, Parse(key), desc)
    ensures r.Ok? ==> forall v :: Like(r.value, Parse(key), v) == Like(rs, Parse(key), v)
  {
    var f := Parse(key);
    if AllHave(rs, f) then
      InsertionSortSorted(rs, f, desc);
      forall v
        ensures Like(InsertionSort(rs, f, desc), f, v) == Like(rs, f, v)
      {
        InsertionSortStable(rs, f, desc, v);
      }
      Ok(InsertionSort(rs, f, desc))
    else Err(MissingSortKey(key))
  }
}

=== FILE: state_files.dfy ===
/**
 ListCases.readState: the small PyFoamState.<suffix> files a running case
 leaves in its directory.
 */
module StateFiles {
  import opened Text
  import opened Files

  /** The text read, and the updated "some case has state files" flag. */
  datatype StateRead = StateRead(text: string, hasState: bool)

  function StateFile(caseDir: string, suffix: string): string {
    PathJoin(caseDir, "PyFoamState." + suffix)
  }

  /** A missing state file yields the caller's default and leaves the flag
      alone; a present one yields its stripped content and sets the flag. */
  function ReadState(fs: FileSystem, caseDir: string, suffix: string, default: string, hasState: bool): (r: StateRead)
    ensures r.hasState <==> hasState || fs.pathExists(StateFile(caseDir, suffix))
    ensures !fs.pathExists(StateFile(caseDir, suffix)) ==> r.text == default
    ensures fs.pathExists(StateFile(caseDir, suffix)) ==>
      exists i: nat, j: nat :: IsStripBounds(fs.read(StateFile(caseDir, suffix)), i, j)
        && r.text == fs.read(StateFile(caseDir, suffix))[i..j]
  {
    var name := StateFile(caseDir, suffix);
    if !fs.pathExists(name) then StateRead(default, hasState)
    else StateRead(Strip(fs.read(name)), true)
  }

  /** The text readState returns with the default "": the stripped content
      of the state file, or "" when there is none. It does not depend on the
      flag. */
  function StateText(fs: FileSystem, caseDir: string, suffix: string): string {
    ReadState(fs, caseDir, suffix, "", false).text
  }
}

=== FILE: text.dfy ===
/**
 String helpers with the semantics of the Python built-ins the listing code
 relies on: str.strip(), str.split(sep), "%d" formatting, "%Ns" padding and
 string repetition. Strings are sequences of characters.
 */
module Text {
  import opened Results

  // ---------------------------------------------------------------------
  // str.strip()

  /** The ASCII whitespace removed by Python's str.strip() without arguments:
      space, tab, newline, vertical tab, form feed and carriage return. */
  predicate IsSpace(c: char) {
    c == ' ' || ('\t' <= c <= '\r')
  }

  predicate AllSpace(s: string) {
    forall k :: 0 <= k < |s| ==> IsSpace(s[k])
  }

  /** Number of whitespace characters at the start of s. */
  function LeadingSpace(s: string): (n: nat)
    ensures n <= |s|
    ensures AllSpace(s[..n])
    ensures n < |s| ==> !IsSpace(s[n])
  {
    if |s| > 0 && IsSpace(s[0]) then
      var n := 1 + LeadingSpace(s[1..]);
      assert s[..n] == [s[0]] + s[1..][..n - 1];
      n
    else 0
  }

  /** Number of whitespace characters at the end of s. */
  function TrailingSpace(s: string): (n: nat)
    ensures n <= |s|
    ensures AllSpace(s[|s| - n..])
    ensures n < |s| ==> !IsSpace(s[|s| - n - 1])
  {
    if |s| > 0 && IsSpace(s[|s| - 1]) then
      var t := s[..|s| - 1];
      var n := 1 + TrailingSpace(t);
      assert s[|s| - n..] == t[|t| - (n - 1)..] + [s[|s| - 1]];
      n
    else 0
  }

  /** s[i..j] is what remains of s once whitespace is removed from both ends:
      the margins are whitespace and the kept part neither starts nor ends
      with whitespace. */
  ghost predicate IsStripBounds(s: string, i: nat, j: nat) {
    && i <= j <= |s|
    && AllSpace(s[..i])
    && AllSpace(s[j..])
    && (i < j ==> !IsSpace(s[i]) && !IsSpace(s[j - 1]))
  }

  /** Where the kept part of s begins and ends once whitespace is removed. */
  function StripStart(s: string): nat {
    LeadingSpace(s)
  }

  function StripEnd(s: string): nat {
    |s| - TrailingSpace(s[LeadingSpace(s)..])
  }

  lemma StripBoundsHold(s: string)
    ensures IsStripBounds(s, StripStart(s), StripEnd(s))
  {
    var i := LeadingSpace(s);
    var t := s[i..];
    var n := TrailingSpace(t);
    var j := |s| - n;
    assert s[j..] == t[|t| - n..];
    if i < j {
      assert t[|t| - n - 1] == s[j - 1];
    }
  }

  /** Python's str.strip(): s without leading and trailing whitespace. */
  function Strip(s: string): (r: string)
    ensures |r| <= |s|
    ensures r == [] || (!IsSpace(r[0]) && !IsSpace(r[|r| - 1]))
    ensures exists i: nat, j: nat :: IsStripBounds(s, i, j) && r == s[i..j]
  {
    var i, j := StripStart(s), StripEnd(s);
    StripBoundsHold(s);
    assert IsStripBounds(s, i, j) && s[i..j] == s[i..j];
    var r := s[i..j];
    assert i < j ==> r[0] == s[i] && r[|r| - 1] == s[j - 1];
    r
  }

  /** Index form of AllSpace on a prefix and a suffix. */
  lemma SpaceMargins(s: string, i: nat, j: nat)
    requires IsStripBounds(s, i, j)
    ensures forall k :: 0 <= k < i ==> IsSpace(s[k])
    ensures forall k :: j <= k < |s| ==> IsSpace(s[k])
  {
    forall k | 0 <= k < i ensures IsSpace(s[k]) {
      assert s[..i][k] == s[k];
    }
    forall k | j <= k < |s| ensures IsSpace(s[k]) {
      assert s[j..][k - j] == s[k];
    }
  }

  /** The strip bounds of a string are unique, so Strip is the only function
      meeting its contract. */
  lemma StripBoundsUnique(s: string, i: nat, j: nat, i': nat, j': nat)
    requires IsStripBounds(s, i, j) && IsStripBounds(s, i', j')
    ensures s[i..j] == s[i'..j']
  {
    SpaceMargins(s, i, j);
    SpaceMargins(s, i', j');
  }

  /** Stripping twice is the same as stripping once. */
  lemma StripIdempotent(s: string)
    ensures Strip(Strip(s)) == Strip(s)
  {
    var r := Strip(s);
    assert r[..0] == [] && r[|r|..] == [];
    assert IsStripBounds(r, 0, |r|);
    var r2 := Strip(r);
    var i: nat, j: nat :| IsStripBounds(r, i, j) && r2 == r[i..j];
    StripBoundsUnique(r, 0, |r|, i, j);
  }

  // ---------------------------------------------------------------------
  // Substring search, str.split(sep) and its inverse sep.join(parts)

  /** pat occurs in s starting at index i. */
  predicate OccursAt(s: string, pat: string, i: nat) {
    i + |pat| <= |s| && s[i..i + |pat|] == pat
  }

  ghost predicate Contains(s: string, pat: string) {
    exists i: nat :: OccursAt(s, pat, i)
  }

  /** Index of the leftmost occurrence of pat in s, as str.find does. */
  function Find(s: string, pat: string): (r: Option<nat>)
    requires |pat| > 0
    ensures r.Some? ==> OccursAt(s, pat, r.value)
    ensures r.Some? ==> forall j: nat :: j < r.value ==> !OccursAt(s, pat, j)
    ensures r.None? ==> forall j: nat :: !OccursAt(s, pat, j)
    decreases |s|
  {
    if |s| < |pat| then None
    else if s[..|pat|] == pat then Some(0)
    else
      var t := s[1..];
      var r := Find(t, pat);
      forall j: nat | 0 < j && OccursAt(s, pat, j)
        ensures OccursAt(t, pat, j - 1)
      {
        assert t[j - 1..j - 1 + |pat|] == s[j..j + |pat|];
      }
      match r
      case None => None
      case Some(k) =>
        assert s[k + 1..k + 1 + |pat|] == t[k..k + |pat|];
        Some(k + 1)
  }

  /** sep.join(parts): the parts with sep between consecutive ones. */
  function Join(parts: seq<string>, sep: string): string
  {
    if |parts| == 0 then ""
    else if |parts| == 1 then parts[0]
    else parts[0] + sep + Join(parts[1..], sep)
  }

  /** An occurrence inside a prefix of s is an occurrence in s. */
  lemma OccursInPrefix(s: string, pat: string, n: nat, j: nat)
    requires n <= |s| && OccursAt(s[..n], pat, j)
    ensures OccursAt(s, pat, j)
  {
    assert s[..n][j..j + |pat|] == s[j..j + |pat|];
  }

  /** Python's s.split(sep) for a non-empty separator: the pieces between
      the leftmost non-overlapping occurrences of sep. */
  function Split(s: string, sep: string): (parts: seq<string>)
    requires |sep| > 0
    ensures |parts| >= 1
    decreases |s|
  {
    match Find(s, sep)
    case None => [s]
    case Some(i) => [s[..i]] + Split(s[i + |sep|..], sep)
  }

  lemma JoinCons(head: string, rest: seq<string>, sep: string)
    requires |rest| >= 1
    ensures Join([head] + rest, sep) == head + sep + Join(rest, sep)
  {
    assert ([head] + rest)[1..] == rest;
  }

  /** Cutting out an occurrence and gluing it back in gives s. */
  lemma Reglue(s: string, sep: string, i: nat)
    requires OccursAt(s, sep, i)
    ensures s == s[..i] + sep + s[i + |sep|..]
  {
    assert s[..i + |sep|] == s[..i] + sep;
    assert s == s[..i + |sep|] + s[i + |sep|..];
  }

  /** Joining the pieces of a split with the separator gives the string
      back. */
  lemma {:induction false} SplitJoin(s: string, sep: string)
    requires |sep| > 0
    ensures Join(Split(s, sep), sep) == s
    decreases |s|
  {
    match Find(s, sep)
    case None =>
    case Some(i) =>
      var rest := s[i + |sep|..];
      SplitJoin(rest, sep);
      JoinCons(s[..i], Split(rest, sep), sep);
      Reglue(s, sep, i);
  }

  /** No piece of a split contains the separator. */
  lemma {:induction false} SplitPiecesFree(s: string, sep: string)
    requires |sep| > 0
    ensures forall k :: 0 <= k < |Split(s, sep)| ==> !Contains(Split(s, sep)[k], sep)
    decreases |s|
  {
    match Find(s, sep)
    case None =>
    case Some(i) =>
      var head := s[..i];
      var rest := s[i + |sep|..];
      SplitPiecesFree(rest, sep);
      forall j: nat | OccursAt(head, sep, j)
        ensures false
      {
        OccursInPrefix(s, sep, i, j);
      }
      var parts := Split(s, sep);
      assert parts == [head] + Split(rest, sep);
      forall k | 0 < k < |parts| ensures parts[k] == Split(rest, sep)[k - 1] { }
  }

  // ---------------------------------------------------------------------
  // Counting a character

  function CountChar(s: string, c: char): nat
  {
    if |s| == 0 then 0 else (if s[0] == c then 1 else 0) + CountChar(s[1..], c)
  }

  lemma {:induction false} CountCharAppend(a: string, b: string, c: char)
    ensures CountChar(a + b, c) == CountChar(a, c) + CountChar(b, c)
    decreases |a|
  {
    if |a| > 0 {
      assert (a + b)[1..] == a[1..] + b;
      CountCharAppend(a[1..], b, c);
    } else {
      assert a + b == b;
    }
  }

  /** A string in which [c] does not occur has no c in it. */
  lemma {:induction false} CountCharAbsent(s: string, c: char)
    requires forall j: nat :: !OccursAt(s, [c], j)
    ensures CountChar(s, c) == 0
    decreases |s|
  {
    if |s| > 0 {
      assert !OccursAt(s, [c], 0);
      assert s[0..1] == [s[0]];
      forall j: nat ensures !OccursAt(s[1..], [c], j) {
        assert !OccursAt(s, [c], j + 1);
        assert j + 1 <= |s[1..]| ==> s[1..][j..j + 1] == s[j + 1..j + 2];
      }
      CountCharAbsent(s[1..], c);
    }
  }

  /** Splitting on a one-character separator gives one piece more than the
      number of times that character occurs. */
  lemma {:induction false} SplitCharCount(s: string, c: char)
    ensures |Split(s, [c])| == CountChar(s, c) + 1
    decreases |s|
  {
    match Find(s, [c])
    case None =>
      CountCharAbsent(s, c);
    case Some(i) =>
      var rest := s[i + 1..];
      SplitCharCount(rest, c);
      forall j: nat ensures !OccursAt(s[..i], [c], j) {
        if OccursAt(s[..i], [c], j) {
          OccursInPrefix(s, [c], i, j);
        }
      }
      CountCharAbsent(s[..i], c);
      assert s[i..i + 1] == [c];
      assert s == s[..i] + [c] + rest;
      CountCharAppend(s[..i] + [c], rest, c);
      CountCharAppend(s[..i], [c], c);
      assert CountChar([c], c) == 1;
  }

  // ---------------------------------------------------------------------
  // Decimal integers: "%d" % n and its inverse

  predicate IsDigit(c: char) {
    '0' <= c <= '9'
  }

  predicate AllDigits(s: string) {
    forall k :: 0 <= k < |s| ==> IsDigit(s[k])
  }

  function DigitChar(d: nat): (c: char)
    requires d < 10
    ensures IsDigit(c)
  {
    "0123456789"[d]
  }

  function DigitValue(c: char): nat
    requires IsDigit(c)
  {
    (c as int - '0' as int) as nat
  }

  /** The decimal digits of n, without leading zeros. */
  function NatToString(n: nat): (s: string)
    ensures |s| >= 1 && AllDigits(s)
    ensures |s| > 1 ==> s[0] != '0'
  {
    if n < 10 then [DigitChar(n)]
    else NatToString(n / 10) + [DigitChar(n % 10)]
  }

  /** "%d" % n: a minus sign for negative numbers, then the digits. */
  function IntToString(n: int): (s: string)
    ensures |s| >= 1
    ensures n >= 0 ==> AllDigits(s)
    ensures n < 0 ==> s[0] == '-' && |s| >= 2 && AllDigits(s[1..])
  {
    if n < 0 then "-" + NatToString(-n) else NatToString(n)
  }

  /** The value of a non-empty string of decimal digits. */
  function ParseNat(s: string): nat
    requires |s| >= 1 && AllDigits(s)
  {
    if |s| == 1 then DigitValue(s[0])
    else 10 * ParseNat(s[..|s| - 1]) + DigitValue(s[|s| - 1])
  }

  lemma {:induction false} ParseNatToString(n: nat)
    ensures ParseNat(NatToString(n)) == n
  {
    if n >= 10 {
      var s := NatToString(n);
      assert s[..|s| - 1] == NatToString(n / 10);
      ParseNatToString(n / 10);
    }
  }

  // ---------------------------------------------------------------------
  // Padding and repetition

  /** The character c repeated n times ("c" * n). */
  function Repeat(c: char, n: nat): (r: string)
    ensures |r| == n
    ensures forall k :: 0 <= k < n ==> r[k] == c
  {
    if n == 0 then "" else [c] + Repeat(c, n - 1)
  }

  /** "%Ns" % s: s right-justified in a field of width w; a longer s is
      kept whole. */
  function PadLeft(s: string, w: nat): (r: string)
    ensures |r| == if |s| >= w then |s| else w
  {
    if |s| >= w then s else Repeat(' ', w - |s|) + s
  }

  /** A padded string is spaces followed by the string itself. */
  lemma PadLeftShape(s: string, w: nat)
    ensures var r := PadLeft(s, w);
      r[|r| - |s|..] == s && AllSpace(r[..|r| - |s|])
  {
  }
}

=== FILE: values.dfy ===
/**
 The dynamically typed values stored in a case record, and the order
 Python 2 puts on them when a list of records is sorted.
 */
module Values {

  /** A Python value as the listing code handles it: None, an int, a float,
      a str, or a dict with string keys (the shape of the analysis cache). */
  datatype Value =
    | Null
    | Int(i: int)
    | Float(x: real)
    | Str(s: string)
    | Dict(entries: map<string, Value>)

  // ---------------------------------------------------------------------
  // Python 2 ordering: None < numbers < dict < str. Mixed-type comparisons
  // order by kind (numbers before everything else, then by type name, and
  // "dict" < "str"); ints and floats compare numerically; strings compare
  // lexicographically by character code. Dictionaries never reach the sort
  // (no sort key holds one) and are all treated as equivalent.

  function Rank(v: Value): nat {
    match v
    case Null => 0
    case Int(_) => 1
    case Float(_) => 1
    case Dict(_) => 2
    case Str(_) => 3
  }

  function Number(v: Value): real
    requires v.Int? || v.Float?
  {
    if v.Int? then v.i as real else v.x
  }

  /** Lexicographic order on strings: a proper prefix comes first. */
  predicate StrLess(a: string, b: string)
    decreases |a|
  {
    if |a| == 0 then |b| > 0
    else if |b| == 0 then false
    else if a[0] != b[0] then a[0] < b[0]
    else StrLess(a[1..], b[1..])
  }

  /** Python 2's a < b on the values the listing sorts by. */
  predicate Less(a: Value, b: Value) {
    if Rank(a) != Rank(b) then Rank(a) < Rank(b)
    else if Rank(a) == 1 then Number(a) < Number(b)
    else if a.Str? then StrLess(a.s, b.s)
    else false
  }

  /** a and b sort as equals: neither is less than the other. */
  predicate Equiv(a: Value, b: Value) {
    !Less(a, b) && !Less(b, a)
  }

  lemma {:induction false} StrLessIrreflexive(a: string)
    ensures !StrLess(a, a)
    decreases |a|
  {
    if |a| > 0 {
      StrLessIrreflexive(a[1..]);
    }
  }

  lemma {:induction false} StrLessTransitive(a: string, b: string, c: string)
    requires StrLess(a, b) && StrLess(b, c)
    ensures StrLess(a, c)
    decreases |a|
  {
    if |a| > 0 && a[0] == b[0] && b[0] == c[0] {
      StrLessTransitive(a[1..], b[1..], c[1..]);
    }
  }

  lemma {:induction false} StrLessTotal(a: string, b: string)
    requires a != b
    ensures StrLess(a, b) || StrLess(b, a)
    decreases |a|
  {
    if |a| > 0 && |b| > 0 && a[0] == b[0] {
      assert a == [a[0]] + a[1..] && b == [b[0]] + b[1..];
      StrLessTotal(a[1..], b[1..]);
    }
  }

  /** Less is a strict weak order: irreflexive, transitive, and whenever
      a < c every b is above a or below c. Sorting relies on exactly this. */
  lemma LessIrreflexive(a: Value)
    ensures !Less(a, a)
  {
    if a.Str? {
      StrLessIrreflexive(a.s);
    }
  }

  lemma LessTransitive(a: Value, b: Value, c: Value)
    requires Less(a, b) && Less(b, c)
    ensures Less(a, c)
  {
    if a.Str? && b.Str? && c.Str? {
      StrLessTransitive(a.s, b.s, c.s);
    }
  }

  lemma LessSplits(a: Value, b: Value, c: Value)
    requires Less(a, c)
    ensures Less(a, b) || Less(b, c)
  {
    if a.Str? && b.Str? && c.Str? {
      if a.s == b.s {
      } else {
        StrLessTotal(a.s, b.s);
        if StrLess(b.s, a.s) {
          StrLessTransitive(b.s, a.s, c.s);
        }
      }
    }
  }
}

=== FILE: version.dfy ===
/**
 The package version and its printable form: version() returns a tuple of
 ints, optionally followed by non-int tags, and versionString() prints it
 as "0.5.6" or "0.5.7-development".
 */
module Version {
  import opened Results
  import opened Text

  /** One entry of the version tuple: an int, or any other object, given by
      the text str() produces for it. */
  datatype Component = Number(n: int) | Label(text: string)

  /** version(): the released version (0, 5, 6). */
  function Version(): seq<Component> {
    [Number(0), Number(5), Number(6)]
  }

  /** How one entry after the first is appended: ".%d" for an int,
      "-%s" for anything else. */
  function ComponentText(c: Component): string {
    match c
    case Number(n) => "." + IntToString(n)
    case Label(t) => "-" + t
  }

  function Suffix(rest: seq<Component>): string {
    if |rest| == 0 then "" else ComponentText(rest[0]) + Suffix(rest[1..])
  }

  /** versionString() applied to the tuple v. The first entry is printed
      with "%d", which fails for an empty tuple and for a non-number, so
      those give None. */
  function VersionString(v: seq<Component>): (r: Option<string>)
    ensures r.Some? <==> |v| > 0 && v[0].Number?
    ensures r.Some? ==> |r.value| >= |IntToString(v[0].n)|
    ensures r.Some? ==> r.value[..|IntToString(v[0].n)|] == IntToString(v[0].n)
  {
    if |v| == 0 || !v[0].Number? then None
    else Some(IntToString(v[0].n) + Suffix(v[1..]))
  }

  /** The shipped version prints as "0.5.6". */
  lemma ReleasedVersionString()
    ensures VersionString(Version()) == Some("0.5.6")
  {
    assert IntToString(0) == "0" && IntToString(5) == "5" && IntToString(6) == "6";
    var rest := Version()[1..];
    assert rest == [Number(5), Number(6)];
    assert rest[1..] == [Number(6)];
    assert rest[1..][1..] == [];
    assert Suffix(rest[1..]) == ".6";
    assert Suffix(rest) == ".5.6";
    assert Version()[0] == Number(0);
    assert VersionString(Version()) == Some("0" + ".5.6");
    assert "0" + ".5.6" == "0.5.6";
  }

  // ---------------------------------------------------------------------
  // Reading a version string back

  /** Length of the run of decimal digits at the start of s. */
  function DigitRun(s: string): (n: nat)
    ensures n <= |s|
  {
    if |s| > 0 && IsDigit(s[0]) then 1 + DigitRun(s[1..]) else 0
  }

  lemma {:induction false} DigitRunAllDigits(s: string)
    ensures AllDigits(s[..DigitRun(s)])
    decreases |s|
  {
    if |s| > 0 && IsDigit(s[0]) {
      DigitRunAllDigits(s[1..]);
      assert s[..DigitRun(s)] == [s[0]] + s[1..][..DigitRun(s[1..])];
    }
  }

  /** Reads an unsigned decimal number at the start of s: its value and the
      number of digits. */
  function ReadNat(s: string): (r: Option<(nat, nat)>)
    ensures r.Some? ==> 0 < r.value.1 <= |s|
  {
    var n := DigitRun(s);
    if n == 0 then None
    else
      DigitRunAllDigits(s);
      Some((ParseNat(s[..n]), n))
  }

  /** Reads a "%d" number at the start of s: its value and its length. */
  function ReadInt(s: string): (r: Option<(int, nat)>)
    ensures r.Some? ==> 0 < r.value.1 <= |s|
  {
    if |s| > 0 && s[0] == '-' then
      match ReadNat(s[1..])
      case None => None
      case Some((m, k)) => Some((-(m as int), k + 1))
    else
      match ReadNat(s)
      case None => None
      case Some((m, k)) => Some((m as int, k))
  }

  predicate IsSeparator(c: char) {
    c == '.' || c == '-'
  }

  /** Length of the run of characters at the start of s that are not
      separators. */
  function LabelRun(s: string): (n: nat)
    ensures n <= |s|
  {
    if |s| > 0 && !IsSeparator(s[0]) then 1 + LabelRun(s[1..]) else 0
  }

  function ParseSuffix(s: string): Option<seq<Component>>
    decreases |s|
  {
    if |s| == 0 then Some([])
    else if s[0] == '.' then
      match ReadInt(s[1..])
      case None => None
      case Some((n, k)) =>
        match ParseSuffix(s[1 + k..])
        case None => None
        case Some(cs) => Some([Number(n)] + cs)
    else if s[0] == '-' then
      var k := LabelRun(s[1..]);
      match ParseSuffix(s[1 + k..])
      case None => None
      case Some(cs) => Some([Label(s[1..1 + k])] + cs)
    else None
  }

  /** Reads a version string back into a tuple. */
  function ParseVersion(s: string): Option<seq<Component>>
  {
    match ReadInt(s)
    case None => None
    case Some((n, k)) =>
      match ParseSuffix(s[k..])
      case None => None
      case Some(cs) => Some([Number(n)] + cs)
  }

  /** Labels that can be read back: they contain no '.' or '-'. */
  predicate PlainLabels(v: seq<Component>) {
    forall k :: 0 <= k < |v| && v[k].Label? ==>
      forall m :: 0 <= m < |v[k].text| ==> !IsSeparator(v[k].text[m])
  }

  predicate StartsClean(t: string) {
    t == [] || !IsDigit(t[0])
  }

  lemma {:induction false} DigitRunOfDigits(d: string, t: string)
    requires AllDigits(d) && StartsClean(t)
    ensures DigitRun(d + t) == |d|
    decreases |d|
  {
    if |d| > 0 {
      assert (d + t)[1..] == d[1..] + t;
      DigitRunOfDigits(d[1..], t);
    } else {
      assert d + t == t;
    }
  }

  lemma ReadNatOf(d: string, t: string)
    requires AllDigits(d) && |d| > 0 && StartsClean(t)
    ensures ReadNat(d + t) == Some((ParseNat(d), |d|))
  {
    DigitRunOfDigits(d, t);
    assert (d + t)[..|d|] == d;
  }

  lemma ReadNegativeOf(d: string, t: string)
    requires AllDigits(d) && |d| > 0 && StartsClean(t)
    ensures ReadInt("-" + (d + t)).Some?
    ensures ReadInt("-" + (d + t)).value.0 == -(ParseNat(d) as int)
    ensures ReadInt("-" + (d + t)).value.1 == |d| + 1
  {
    var s := "-" + (d + t);
    assert |s| > 0 && s[0] == '-' && s[1..] == d + t;
    ReadNatOf(d, t);
  }

  lemma ReadUnsignedOf(d: string, t: string)
    requires AllDigits(d) && |d| > 0 && StartsClean(t)
    ensures ReadInt(d + t).Some?
    ensures ReadInt(d + t).value.0 == ParseNat(d) as int
    ensures ReadInt(d + t).value.1 == |d|
  {
    assert (d + t)[0] == d[0];
    ReadNatOf(d, t);
  }

  lemma ReadIntOf(n: int, t: string)
    requires StartsClean(t)
    ensures ReadInt(IntToString(n) + t).Some?
    ensures ReadInt(IntToString(n) + t).value.0 == n
    ensures ReadInt(IntToString(n) + t).value.1 == |IntToString(n)|
  {
    if n < 0 {
      var d := NatToString(-n);
      assert IntToString(n) == "-" + d;
      assert IntToString(n) + t == "-" + (d + t);
      ReadNegativeOf(d, t);
      ParseNatToString(-n);
    } else {
      var d := NatToString(n);
      assert IntToString(n) == d;
      ReadUnsignedOf(d, t);
      ParseNatToString(n);
    }
  }

  lemma {:induction false} LabelRunOfLabel(l: string, t: string)
    requires forall m :: 0 <= m < |l| ==> !IsSeparator(l[m])
    requires t == [] || IsSeparator(t[0])
    ensures LabelRun(l + t) == |l|
    decreases |l|
  {
    if |l| > 0 {
      assert (l + t)[1..] == l[1..] + t;
      LabelRunOfLabel(l[1..], t);
    } else {
      assert l + t == t;
    }
  }

  lemma SuffixStart(rest: seq<Component>)
    ensures Suffix(rest) == [] || IsSeparator(Suffix(rest)[0])
  {
  }

  lemma PlainLabelsTail(v: seq<Component>)
    requires |v| > 0 && PlainLabels(v)
    ensures PlainLabels(v[1..])
  {
    forall k | 0 <= k < |v[1..]| ensures v[1..][k] == v[k + 1] { }
  }

  /** One step of reading back: the first entry is recovered and the rest
      of the text is what the remaining entries printed. */
  lemma ParseNumberStep(n: int, tail: string, cs: seq<Component>)
    requires tail == [] || IsSeparator(tail[0])
    requires ParseSuffix(tail) == Some(cs)
    ensures ParseSuffix(ComponentText(Number(n)) + tail) == Some([Number(n)] + cs)
  {
    ReadIntOf(n, tail);
    ParseNumberText(IntToString(n), n, tail, cs);
    assert ComponentText(Number(n)) + tail == "." + (IntToString(n) + tail);
  }

  lemma ParseNumberText(d: string, n: int, tail: string, cs: seq<Component>)
    requires ReadInt(d + tail).Some? && ReadInt(d + tail).value.0 == n && ReadInt(d + tail).value.1 == |d|
    requires ParseSuffix(tail) == Some(cs)
    ensures ParseSuffix("." + (d + tail)) == Some([Number(n)] + cs)
  {
    var s := "." + (d + tail);
    assert s[0] == '.' && s[1..] == d + tail;
    assert s[1 + |d|..] == tail;
  }

  lemma ParseLabelStep(l: string, tail: string, cs: seq<Component>)
    requires forall m :: 0 <= m < |l| ==> !IsSeparator(l[m])
    requires tail == [] || IsSeparator(tail[0])
    requires ParseSuffix(tail) == Some(cs)
    ensures ParseSuffix(ComponentText(Label(l)) + tail) == Some([Label(l)] + cs)
  {
    var u := l + tail;
    var s := "-" + u;
    assert ComponentText(Label(l)) + tail == s;
    assert |s| > 0 && s[0] == '-' && s[1..] == u;
    LabelRunOfLabel(l, tail);
    assert u[..|l|] == l;
    assert s[1..1 + |l|] == l;
    assert u[|l|..] == tail;
    assert s[1 + |l|..] == tail;
  }

  lemma {:induction false} SuffixRoundTrip(rest: seq<Component>)
    requires PlainLabels(rest)
    ensures ParseSuffix(Suffix(rest)) == Some(rest)
    decreases |rest|
  {
    if |rest| > 0 {
      PlainLabelsTail(rest);
      SuffixRoundTrip(rest[1..]);
      SuffixStart(rest[1..]);
      assert [rest[0]] + rest[1..] == rest;
      assert Suffix(rest) == ComponentText(rest[0]) + Suffix(rest[1..]);
      match rest[0]
      case Number(n) =>
        ParseNumberStep(n, Suffix(rest[1..]), rest[1..]);
      case Label(l) =>
        assert forall m :: 0 <= m < |l| ==> !IsSeparator(l[m]);
        ParseLabelStep(l, Suffix(rest[1..]), rest[1..]);
    }
  }

  /** Printing a tuple and reading it back gives the tuple again, as long as
      its labels contain no separator. */
  lemma VersionRoundTrip(v: seq<Component>)
    requires VersionString(v).Some? && PlainLabels(v)
    ensures ParseVersion(VersionString(v).value) == Some(v)
  {
    var d := IntToString(v[0].n);
    var tail := Suffix(v[1..]);
    PlainLabelsTail(v);
    SuffixStart(v[1..]);
    ReadIntOf(v[0].n, tail);
    SuffixRoundTrip(v[1..]);
    assert (d + tail)[|d|..] == tail;
    assert [v[0]] + v[1..] == v;
  }
}
